=== FILE: README.md ===
# Dhraviq interview coach: a Dafny model of its core

Dhraviq is a web app that helps candidates prepare for interviews. A candidate
uploads a résumé or picks a domain and role. The app produces an analysis
with practice questions, and an AI coach writes model answers on request. The
gate for coaching is an email address saved with the account. This project
models the logic under that flow as immutable datatypes and pure functions,
and proves properties about them:

- **Storage**: the local store as four finite maps: sessions, cached answers,
  companies and the HR question bank. It covers saving and evicting sessions,
  the "last session", the composite answer key, the company upsert whose
  spread lets a caller's `id` win, and the HR-bank preload with its key-ordered
  read-back.
- **SessionManager**: the session hook's `{session, isLoading}` state machine,
  with load-last, create and clear.
- **Coaching**: the enhanced dashboard's coaching controller. A help request
  checks the session, then the answer cache, then the email gate, then calls
  the coach. Answers are recorded and cached, pending requests resume after
  the gate, and the answer toggle and section selection are covered. Every
  outside interaction is an event in a trace, so "no call" and "one call" are
  statements about that trace.
- **GmailCapture**: the email dialog's validation and its save-result
  branching.
- **Upload**: the file checks (a MIME whitelist and a 10 MiB bound) of the
  professional and the simple upload components, and the professional panel's
  mode and domain/role form.
- **ProDashboard**: the professional dashboard's search and drop-down filters,
  its simulated help request, its visibility toggle and its email gate.
- **CommandPalette**: the keyboard shortcut, the question groups and their
  `slice` limits, title truncation and subtitles.
- **QuestionCard**: tag truncation, which panels and buttons a card shows, and
  the colour and icon tables.
- **Score**: the score bands and the animated counter.
- **Companies**: the company list, the per-company question packs and the HR
  bank.
- **Api**, **Strings**, **Seqs**, **Wrappers**: the shared shapes, plus models
  of the JavaScript built-ins the code relies on: `find`, `filter`, `slice`,
  `includes`, `toLowerCase`, `String(n)` and code-unit string order.

Time, random digits, the cache contents, the email oracle and the coach's
reply are all parameters. Whether a store write or read succeeds is a
parameter as well.

## Model

| member | source | states |
|---|---|---|
| Storage.SaveSession | src/lib/storage.ts:76-86 | The session is upserted by id with the given text and analysis. Both timestamps become `now`, also on a re-save. Other sessions and the other three stores are unchanged, and every record stays keyed by its own id. |
| Storage.LatestUnique | src/lib/storage.ts:88-96 | At most one stored session comes first in the `lastAccessed` index read backwards, so "the last session" is well defined. |
| Storage.GetLastSession | src/lib/storage.ts:88-96 | The result is None exactly when no session is stored. Otherwise it is the session with the greatest `lastAccessed`; a tie goes to the greater key. |
| Storage.ResaveBecomesLatest | src/lib/storage.ts:79-85 | Saving an existing session again refreshes its `lastAccessed`, so it overtakes a session written in between. |
| Storage.ClearOldSessions | src/lib/storage.ts:152-164 | Deletes exactly the sessions with `lastAccessed < now - maxAge`. A session exactly at the bound is kept. Survivors and the other stores are untouched. |
| Storage.DefaultAgeExample | src/lib/storage.ts:152 | The default age limit is 2,592,000,000 ms: a session 31 days old is evicted and one 29 days old is kept. |
| Storage.ClearKeepsLatest | src/lib/storage.ts:152-164 | If the latest session survives eviction, it is still the latest afterwards. |
| Storage.ClearEvictsAllWhenLatestIsOld | src/lib/storage.ts:152-164 | If the latest session is evicted, every session is. |
| Storage.GetAnswer | src/lib/storage.ts:110-115 | A cached answer reads back only when its composite key is stored. A stored empty answer reads as absent, because it is falsy. |
| Storage.SaveAnswer | src/lib/storage.ts:98-108 | Round trip: afterwards `getAnswer` returns the answer if it is non-empty and nothing if it is empty. Only the entry at its own key is added or replaced. |
| Storage.AnswerKeyInjective | src/lib/storage.ts:102 | `questionId + "-" + sessionId` determines both ids when neither session id contains a dash. |
| Storage.AnswerKeyCollision | src/lib/storage.ts:113 | Without that restriction two different pairs share a key: ("a-b", "c") and ("a", "b-c"). |
| Storage.SaveAnswerIsolated | src/lib/storage.ts:101-107 | For dash-free session ids, saving one pair's answer never changes what any other pair reads. |
| Storage.SaveCompanyData | src/lib/storage.ts:117-125 | The record is stored under the caller's `data.id` when present, else under `companyId`. `updatedAt` is `now` whatever the caller sent. Only that key changes. |
| Storage.GetCompanyData | src/lib/storage.ts:127-130 | Returns the stored record exactly when its key is present. |
| Storage.CompanyRoundTrip | src/lib/storage.ts:117-130 | Data saved without its own id reads back under `companyId` with that id and the save time. |
| Storage.KeyOrder | src/lib/storage.ts:132-135 | The keys of a collection, each once, in strictly ascending key order. |
| Storage.GetAllCompanies | src/lib/storage.ts:132-135 | Every stored company exactly once, in ascending id order. |
| Storage.PreloadHRBank | src/lib/storage.ts:137-145 | The bank gains exactly the ids of the list. Each listed id holds its last question in the list, so a later duplicate wins. Unlisted entries and the other stores stay. |
| Storage.PreloadHRBankIdempotent | src/lib/storage.ts:137-145 | Preloading the same list twice leaves the same store as preloading it once. |
| Storage.GetHRBank | src/lib/storage.ts:147-150 | Every stored question exactly once, in ascending id order. |
| SessionManager.BeginLoad | src/hooks/useSession.ts:20-22 | Starting a load raises `isLoading` and keeps the published session. |
| SessionManager.FinishLoad | src/hooks/useSession.ts:23-29 | After a load `isLoading` is false on every outcome. A successful read publishes the stored last session or null. A failed read leaves the session as it was. |
| SessionManager.LoadLastSession | src/hooks/useSession.ts:20-30 | The whole load: it publishes null exactly when the store has no session, otherwise the latest stored one. An unavailable store changes nothing but the flag. |
| SessionManager.NewSessionId | src/hooks/useSession.ts:33 | The id is "session_", then `String(now)` (decimal digits that parse back to the timestamp), then "_", then exactly the first nine random base-36 digits, or all of them if there are fewer. It contains no dash, so answer keys stay injective. |
| SessionManager.CreateSession | src/hooks/useSession.ts:32-44 | The session is persisted before it is published. On a failed write the error propagates and state and store are unchanged. On success the created session's id is exactly `NewSessionId(now, randomDigits)`, the stored and published session carry the given text and analysis, and the store is the old one with only that session saved: every other session, cached answer, company and HR question is kept. |
| SessionManager.CreatedIsLatest | src/hooks/useSession.ts:32-44 | A created session is the store's last session when its write is the newest. |
| SessionManager.ClearSession | src/hooks/useSession.ts:46-48 | Clearing unpublishes the session, keeps the loading flag and touches no store. |
| GmailCapture.ValidEmail | src/components/GmailCapture.tsx:32 | An email is accepted exactly when it contains '@'; the emptiness test is subsumed. |
| GmailCapture.SubmitDisabled | src/components/GmailCapture.tsx:131 | The submit button is disabled while saving and while the field is empty. |
| GmailCapture.Saving | src/components/GmailCapture.tsx:41 | While the save is awaited the form shows loading and keeps its email and open flag. |
| GmailCapture.Submit | src/components/GmailCapture.tsx:29-65 | An invalid email is rejected before any save, with state unchanged. Otherwise the save runs and loading ends on every outcome. `onSuccess` runs exactly when the save succeeded and a callback exists. Only then does the dialog close. A failed save shows an error toast. |
| GmailCapture.MissingCallbackReportsError | src/components/GmailCapture.tsx:43-61 | As written: a saved email without a callback shows "saved" and then an error, and the dialog stays open. |
| GmailCapture.SubmitWithOptionalCallback | src/components/GmailCapture.tsx:46-52 | Corrected: a saved email always closes the dialog with only the success toast; the callback is optional. |
| GmailCapture.SubmitAgreesWithCallback | src/components/GmailCapture.tsx:29-65 | Where a callback is passed, the corrected and the as-written submit coincide. |
| Coaching.AllQuestions | src/pages/enhanced/Dashboard.tsx:263-265 | The session's questions come first, then the HR bank. |
| Coaching.ResolveQuestion | src/pages/enhanced/Dashboard.tsx:71-72 | A question resolves exactly when its id occurs among the session's questions or the HR bank. The first match among the session's questions wins, with the HR bank as the fallback. |
| Coaching.BeginFetch | src/pages/enhanced/Dashboard.tsx:76 | A fetch marks its question as loading and changes nothing else. |
| Coaching.SettleFetch | src/pages/enhanced/Dashboard.tsx:78-107 | A reply records the answer, makes it visible, caches it under (question, session) and reports success. A failure records, shows and caches nothing and reports the failure. On every outcome the id leaves loading and no other id's state changes. |
| Coaching.FetchHelpAnswer | src/pages/enhanced/Dashboard.tsx:68-108 | Without a session, or for an id that resolves nowhere, nothing happens. Otherwise there is exactly one coaching call, made first, for the resolved question and the session's résumé, and it is then settled. |
| Coaching.HandleHelpRequest | src/pages/enhanced/Dashboard.tsx:39-66 | The checks run in a fixed order. Without a session only a toast is shown. A cache hit reveals the answer without a gate check or a call. A miss without an email records the pending id and opens the gate. A miss with an email fetches. There is at most one call, and only with an email. |
| Coaching.HandleGmailSuccess | src/pages/enhanced/Dashboard.tsx:110-115 | With a non-empty pending id, it fetches that id once and then clears pending. Otherwise it does nothing. |
| Coaching.SubmitGate | src/pages/enhanced/Dashboard.tsx:277-281 | The dialog with the callback wired in: a saved valid email resumes the pending request and closes the gate. Any other submit leaves the controller and store unchanged. |
| Coaching.HandleAnswerToggle | src/pages/enhanced/Dashboard.tsx:117-127 | Flips the visibility of one id and nothing else. |
| Coaching.AnswerToggleTwice | src/pages/enhanced/Dashboard.tsx:117-127 | Toggling twice restores the controller. |
| Coaching.HandleQuestionSelect | src/pages/enhanced/Dashboard.tsx:129-136 | HR and behavioural questions open "hr-bank" and technical ones open "questions". Nothing else changes. |
| Coaching.ClickHelp | src/pages/enhanced/Dashboard.tsx:175-182 | A card's help click reaches the controller only when the card is expanded and not already loading that id. A click on a collapsed card or on a loading one changes nothing and makes no call. |
| Coaching.SettledAnswerIsShown | src/components/enhanced/QuestionCard.tsx:131-203 | After a non-empty answer is settled, the question's expanded card shows the coaching panel, an enabled help button and a "Hide Answer" toggle. |
| Coaching.NoInFlightGuard | src/pages/enhanced/Dashboard.tsx:39-76 | The controller itself does not refuse an id already loading: such a request still makes a call. Only the disabled button prevents it. |
| Coaching.CacheHitMakesNoCall | src/pages/enhanced/Dashboard.tsx:49-55 | A cached answer is recorded and shown without a gate check, a call or a store write. |
| Coaching.UnresolvedMakesNoCall | src/pages/enhanced/Dashboard.tsx:71-74 | An id that resolves nowhere makes no call and leaves the controller and store as they were. |
| Coaching.AnsweredFetchIsCached | src/pages/enhanced/Dashboard.tsx:84-89 | After an answered fetch the answer is readable from the store for that question and session. |
| Coaching.SecondRequestHitsCache | src/pages/enhanced/Dashboard.tsx:49-89 | After an answered, cached fetch, a second request for the same question is a cache hit. Across both requests there is at most one coaching call. |
| Coaching.GatedRequestCompletesOnce | src/pages/enhanced/Dashboard.tsx:57-115 | A miss without an email parks the id behind the gate. Saving an email then fetches it exactly once and clears pending. A later request hits the cache. |
| ProDashboard.FilteredQuestions | src/pages/enhanced/ProfessionalDashboard.tsx:164-171 | The questions passing the case-insensitive search and both drop-downs, in their original order. Each passing question appears as often as in the source list, and a failing one never does. |
| ProDashboard.FilteredHRQuestions | src/pages/enhanced/ProfessionalDashboard.tsx:173-176 | The HR questions passing the search, in their original order. Each passing question appears as often as in the source list, and a failing one never does. |
| ProDashboard.EmptyQueryMatches | src/pages/enhanced/ProfessionalDashboard.tsx:165-166 | The empty query matches every question. |
| ProDashboard.EmptyQueryKeepsAll | src/pages/enhanced/ProfessionalDashboard.tsx:164-176 | With an empty search and both selections at "all", both lists are unfiltered. |
| ProDashboard.HrFilterIgnoresSelections | src/pages/enhanced/ProfessionalDashboard.tsx:173-176 | The HR list equals the question filter with both selections at "all", whatever is selected. |
| ProDashboard.SearchIgnoresCase | src/pages/enhanced/ProfessionalDashboard.tsx:165-166 | A query and its lower-cased form match the same questions. |
| ProDashboard.SearchFindsText | src/pages/enhanced/ProfessionalDashboard.tsx:165 | A query occurring anywhere in the lower-cased question text finds the question. |
| ProDashboard.BehavioralSelectsNoSample | src/pages/enhanced/ProfessionalDashboard.tsx:164-171 | Selecting the "behavioral" category empties the sample list, whose questions are "technical" and "hr". |
| ProDashboard.HelpRequest | src/pages/enhanced/ProfessionalDashboard.tsx:129-135 | Without a non-empty session email only the gate opens. Otherwise the id starts loading and nothing else changes. |
| ProDashboard.HelpTimerFires | src/pages/enhanced/ProfessionalDashboard.tsx:138-149 | The timer records the canned answer, shows it and ends loading for that id only. |
| ProDashboard.RequestThenTimerRestoresLoading | src/pages/enhanced/ProfessionalDashboard.tsx:135-148 | A request followed by its timer leaves the loading set as before and the answer visible. |
| ProDashboard.SubmitGate | src/pages/enhanced/ProfessionalDashboard.tsx:492-495 | As written: the dialog has no callback, so a saved email reports both success and an error. The dashboard state is untouched. |
| ProDashboard.ToggleAnswerVisibility | src/pages/enhanced/ProfessionalDashboard.tsx:152-162 | Flips exactly one id's visibility. |
| ProDashboard.ToggleAnswerVisibilityTwice | src/pages/enhanced/ProfessionalDashboard.tsx:152-162 | Toggling twice restores the state. |
| CommandPalette.KeyDown | src/components/CommandPalette.tsx:24-29 | "k" with Meta or Ctrl flips the palette; every other key leaves it. |
| CommandPalette.ShortcutTwiceRestores | src/components/CommandPalette.tsx:25-27 | The shortcut pressed twice restores the open flag. |
| CommandPalette.Choose | src/components/CommandPalette.tsx:84-87 | Choosing any entry hands it to the page and closes the palette. |
| CommandPalette.TechnicalGroup | src/components/CommandPalette.tsx:78-81 | The technical group as listed before anything is typed: a prefix of the technical questions in list order, of length min(5, number of technical questions). When fewer than five are shown, every technical question is shown. |
| CommandPalette.HrGroup | src/components/CommandPalette.tsx:107-110 | The HR group as listed before anything is typed: a prefix of the HR and behavioural questions in list order, of length min(3, number of such questions). When fewer than three are shown, all of them are. |
| CommandPalette.TechnicalGroupListsEarly | src/components/CommandPalette.tsx:78-81 | A technical question preceded by fewer than five technical ones is listed. |
| CommandPalette.HrGroupListsEarly | src/components/CommandPalette.tsx:107-110 | An HR or behavioural question preceded by fewer than three such is listed. |
| CommandPalette.GroupsDisjoint | src/components/CommandPalette.tsx:78-110 | No question appears in both groups. |
| CommandPalette.Truncate | src/components/CommandPalette.tsx:93-96 | A title of at most 60 characters is shown whole. A longer one keeps its first 60 characters and gains "...". Characters are counted as Dafny characters; the source counts UTF-16 code units (see "Left out"). |
| CommandPalette.TruncateIdempotent | src/components/CommandPalette.tsx:93-96 | Truncating a shown title again changes nothing. |
| CommandPalette.TechnicalSubtitleCases | src/components/CommandPalette.tsx:99 | The subtitle is the difficulty, " • ", and the first two tags joined by ", ", for each tag count 0, 1 or 2 and more. |
| CommandPalette.HrSubtitle | src/components/CommandPalette.tsx:128 | The HR subtitle is the difficulty, then the " • " separator, then the category, and nothing else. |
| QuestionCard.ShownTags | src/components/enhanced/QuestionCard.tsx:98 | At most the first three tags, as a prefix of the list. |
| QuestionCard.MoreTags | src/components/enhanced/QuestionCard.tsx:103-107 | "+N more" appears exactly when there are more than three tags. N counts the tags not shown. |
| QuestionCard.InitiallyExpanded | src/components/enhanced/QuestionCard.tsx:38 | Compact cards start collapsed and full cards start expanded. |
| QuestionCard.Render | src/components/enhanced/QuestionCard.tsx:95-203 | The tag row shows iff there are tags, and the expand toggle iff the card is compact. The coaching panel shows iff expanded, visible and holding a non-empty answer. The help button is disabled iff loading, with its label following that flag. The Show/Hide button exists iff expanded with an answer and a toggle callback, and its label follows visibility. |
| QuestionCard.HelpClick | src/components/enhanced/QuestionCard.tsx:174-178 | A help click yields the question id exactly when the body is shown and the button is enabled. |
| QuestionCard.DifficultyColor | src/components/enhanced/QuestionCard.tsx:40-47 | Any difficulty other than easy, medium or hard gets the default classes. |
| QuestionCard.DifficultyColorsDistinct | src/components/enhanced/QuestionCard.tsx:40-47 | Easy, medium and hard get three distinct classes, none of them the default. |
| QuestionCard.CategoryIcon | src/components/enhanced/QuestionCard.tsx:49-56 | The fallback icon is used exactly for strings other than the three categories. |
| QuestionCard.CategoryColor | src/components/enhanced/QuestionCard.tsx:58-65 | Any other string gets the default colour. |
| QuestionCard.CategoryStylesDistinct | src/components/enhanced/QuestionCard.tsx:49-65 | The three categories get distinct icons and distinct colours, never the fallbacks. |
| Score.BandOf | src/components/DhraviqScore.tsx:63-68 | Scores of 80 and above are Excellent, 60 to below 80 Good, 40 to below 60 Fair, and anything lower Needs Work. |
| Score.ScoreLabel | src/components/DhraviqScore.tsx:63-68 | `getScoreLabel` is the label of the score's band. |
| Score.ScoreColor | src/components/DhraviqScore.tsx:56-61 | `getScoreColor` is the colour of the same band, so label and colour always agree. |
| Score.BandsDistinguishable | src/components/DhraviqScore.tsx:56-68 | Two scores share a label iff they share a band iff they share a colour. |
| Score.BandMonotone | src/components/DhraviqScore.tsx:56-68 | A higher score never gets a worse band. |
| Score.Increment | src/components/DhraviqScore.tsx:36 | One tick adds a fiftieth of the score. |
| Score.AnimationStep | src/components/DhraviqScore.tsx:38-44 | A step never exceeds the score and snaps to it from at or above. Below the score it is `min(prev + score/50, score)`: one increment, or exactly the score when one more increment would overshoot. |
| Score.AnimateLinear | src/components/DhraviqScore.tsx:35-45 | For a positive score, the counter after n ≤ 50 ticks shows n increments. |
| Score.AnimateSettles | src/components/DhraviqScore.tsx:38-42 | Fifty ticks reach a positive score and it stays there. |
| Score.NonPositiveShownAtOnce | src/components/DhraviqScore.tsx:38-42 | A score of zero or below is shown from the first tick on. |
| Score.AnimateBounded | src/components/DhraviqScore.tsx:38-44 | After any tick the counter never overshoots the score. |
| Score.DisplayScore | src/components/DhraviqScore.tsx:33-54 | For a score fixed since mount: when not animated the score is shown at once. When animated it shows the counter from 0, which is linear up to 50 ticks and never above the score. A score change while mounted is not covered (see "Left out"). |
| Score.Round | src/components/DhraviqScore.tsx:126 | `Math.round`: the nearest integer, with halves rounded up. |
| Score.ShownNumber | src/components/DhraviqScore.tsx:126 | The gauge prints the displayed value rounded. Without animation that is the rounded score at once. After any tick it is never above the rounded score. |
| Score.SettledShowsRoundedScore | src/components/DhraviqScore.tsx:126 | For a score fixed since mount, once the counter has settled (fifty ticks for a positive score) the animated gauge prints the same number as the unanimated one, the rounded score. |
| Upload.CheckFile | src/components/upload/ProfessionalUpload.tsx:93-115 | A type outside the whitelist is a type error, whatever the size. An accepted type over 10 MiB is too large. Everything else is accepted. |
| Upload.SameVerdict | src/components/ResumeUpload.tsx:43-54 | Both components judge every file the same way: their whitelists differ only in order. |
| Upload.SizeBoundInclusive | src/components/upload/ProfessionalUpload.tsx:108 | Exactly 10,485,760 bytes is accepted and one byte more is not. |
| Upload.TypeCheckedFirst | src/components/upload/ProfessionalUpload.tsx:99-115 | A file failing both checks is reported as a type error. |
| Upload.ProFileSelection | src/components/upload/ProfessionalUpload.tsx:90-120 | A missing file does nothing. A rejected file shows its toast and leaves the state. An accepted file is recorded, switches to the résumé panel and is uploaded exactly once. As written the handler is reachable only from within the résumé panel (see Upload.ResumePanelUnreachable). |
| Upload.First | src/components/ResumeUpload.tsx:38 | `files[0]`: absent exactly for an empty list. |
| Upload.ProFilesChosen | src/components/upload/ProfessionalUpload.tsx:82-88 | A drop or an input change considers only the first file; an empty list does nothing. |
| Upload.ChooseDomain | src/components/upload/ProfessionalUpload.tsx:399 | Picking a domain sets it and nothing else. |
| Upload.ChooseRole | src/components/upload/ProfessionalUpload.tsx:422 | Picking a role sets it and nothing else. |
| Upload.DomainSubmit | src/components/upload/ProfessionalUpload.tsx:129-141 | An empty domain or role shows a toast and leaves the mode. Otherwise the mode becomes the domain panel and the selection is passed up once. |
| Upload.EnabledSubmitSelects | src/components/upload/ProfessionalUpload.tsx:440-441 | Whenever the submit button is enabled, clicking it passes the selection up. |
| Upload.OpenDomainForm | src/components/upload/ProfessionalUpload.tsx:251 | The domain card opens the domain panel and keeps everything else. |
| Upload.ClosePanel | src/components/upload/ProfessionalUpload.tsx:297 | The X buttons (lines 297 and 388) return to the chooser. They keep the recorded file and the picks. |
| Upload.ClickFileInput | src/components/upload/ProfessionalUpload.tsx:363-369 | Clicking the hidden input through its ref opens the picker only while the input is mounted, which is only in the résumé panel. Otherwise the click does nothing. |
| Upload.ProHandle | src/components/upload/ProfessionalUpload.tsx:189-447 | A user event on an element not on screen does nothing. Only the X button leaves the résumé panel. From any other panel no event enters the résumé panel or uploads a file. |
| Upload.ResumePanelUnreachable | src/components/upload/ProfessionalUpload.tsx:214 | As written: from the chooser or the domain form, no sequence of events ever shows the résumé panel or calls the upload callback. |
| Upload.ResumeCardIntended | src/components/upload/ProfessionalUpload.tsx:214 | Corrected: the "Upload Resume" card opens the picker, and an accepted first file switches to the résumé panel and is uploaded once. |
| Upload.IntendedCardOpensResumePanel | src/components/upload/ProfessionalUpload.tsx:212-215 | With the corrected card, one accepted file picked from the initial chooser shows the résumé panel and uploads exactly that file. |
| Upload.ResumeFilesChosen | src/components/ResumeUpload.tsx:37-70 | Only the first file counts and an empty list does nothing. A rejected file shows its toast without an upload. An accepted file is recorded and uploaded exactly once. |
| Upload.ComponentsUploadAlike | src/components/ResumeUpload.tsx:29-79 | For any list of files, both components upload a given file iff the other does. |
| Companies.GetCompanyQuestionsAsWritten | src/data/companies.ts:154 | As written: an inherited member name such as "toString" escapes the empty-list fallback. |
| Companies.InheritedNameEscapesFallback | src/data/companies.ts:154 | "toString" and "constructor" yield an inherited member, not a question list. |
| Companies.GetCompanyQuestions | src/data/companies.ts:95-155 | The three packed companies get non-empty packs, and every id in a pack starts with the company id and "-". Any other id gets the empty list. |
| Companies.GetCompanyQuestionsAgrees | src/data/companies.ts:96-154 | On every id that is not an inherited member name, the corrected and the as-written lookup agree. |
| Companies.HrBankIdsDistinct | src/data/companies.ts:158-215 | The HR bank's ids are pairwise distinct and start with "hr-". |
| Companies.CompanyIdsDistinct | src/data/companies.ts:15-92 | The company ids are pairwise distinct. |
| Api.FindById | src/pages/enhanced/Dashboard.tsx:71-72 | `find` by id returns nothing exactly when no question has the id, and otherwise a listed question with that id. |
| Api.FindByIdAppend | src/pages/enhanced/Dashboard.tsx:71-72 | Searching the session's questions followed by the HR bank searches the session's questions first. |
| Api.LastWithId | src/lib/storage.ts:141-143 | The question a keyed upsert leaves behind for an id: present exactly when some listed question has the id. |
| Strings.Decimal | src/hooks/useSession.ts:33 | `String(n)` of a non-negative integer: non-empty decimal digits without a leading zero, denoting n. |
| Strings.Lower | src/pages/enhanced/ProfessionalDashboard.tsx:165 | `toLowerCase` keeps the length, maps each character, and leaves no upper-case ASCII letter. |
| Strings.LessTotal | src/lib/storage.ts:132-135 | Key order relates any two distinct keys. |
| Strings.LessTransitive | src/lib/storage.ts:132-135 | Key order is transitive, so `getAll`'s order is a strict total order. |
| Seqs.Filter | src/pages/enhanced/ProfessionalDashboard.tsx:164-171 | `filter` returns an order-preserving subsequence whose members are exactly the elements satisfying the predicate. |
| Seqs.FilterCounts | src/pages/enhanced/ProfessionalDashboard.tsx:164-171 | `filter` keeps every copy of a kept element and no copy of a dropped one. |
| Seqs.Toggle | src/pages/enhanced/ProfessionalDashboard.tsx:152-162 | The Set toggle flips one element's membership and no other. |

## Left out

- The IndexedDB layer (src/lib/storage.ts:47-74,77): opening, schema upgrade, transactions and the unguarded lazy `init` are a foreign library plus a concurrency concern. The store is four plain maps keyed by each record's `id`.
- Store failures inside the dashboard controller are modelled only for the answer-cache write (`cacheWritable`). A failing cache read there is not modelled.
- Storage.SaveCompanyData: the caller object is modelled with its three known optional fields. Extra properties the spread would copy are not carried.
- `ApiClient` (src/lib/api.ts): HTTP and JSON are network I/O. The coach's reply is a parameter (an answer or a failure), and the interfaces are kept as datatypes.
- `GmailManager` (src/lib/firebase.ts) wraps Firebase SDKs. `hasGmail` and the save's outcome are parameters. A save that throws is the same branch as one that returns false.
- `Date.now` and `Math.random` are parameters. `createSession` reads the clock once for the id and `saveSession` reads it twice more for the two timestamps; all three reads are taken as one instant, `now`.
- Strings.Lower: `toLowerCase` is modelled for ASCII letters only. Full Unicode case mapping is not modelled.
- GmailCapture.Submit: only the handler's own '@' test (src/components/GmailCapture.tsx:32) is modelled. The field is `type="email" required` in a form without `noValidate` (lines 90-109), so the browser's own constraint check blocks values such as "@" or "a@" before the handler runs, with no toast and no save. That browser check is not modelled, and the model's Submit saves such values.
- CommandPalette.TechnicalGroup and CommandPalette.HrGroup: the groups are the entries listed before anything is typed. The palette's `CommandInput` (src/components/CommandPalette.tsx:36-39) makes the command library hide listed entries that do not match the typed text. That library's fuzzy matching is foreign code and is not modelled.
- Score.DisplayScore: the counter is modelled for a score fixed since mount, counting up from 0. The effect (src/components/DhraviqScore.tsx:33-53) re-runs when `score` changes and steps on from the current display. The interval's cleanup at line 46 is the return value of the timeout callback, so React discards it, and an interval already running survives the change. It keeps stepping toward the old score alongside the new interval. After a change from 80 to 40 mid-animation, for example, the display can end at 80. Two interleaved intervals are not modelled, so "never above the score" is promised only for a score that has not changed.
- CommandPalette.Truncate: JavaScript measures and cuts titles in UTF-16 code units. The model counts Dafny characters, so the two agree only on titles without characters above U+FFFF. A 60-character title holding an emoji is cut there and shown whole here.
- Strings.Less: JavaScript orders strings by UTF-16 code units. The model orders by Dafny characters, which agree below U+10000.
- Score: scores are exact reals. Floating-point rounding of `score / 50` over fifty additions is not modelled.
- SVG geometry and percentage math in the score gauge (src/components/DhraviqScore.tsx:20-31) are floating-point rendering.
- Timers and intervals (the counter's 30 ms interval after its 500 ms start delay, the 2 s simulated help request) are steps, not times. `clearInterval` is the counter reaching its last step.
- While its `isUploading` prop is set, the professional upload shows only a spinner; the panel events are modelled for the unset prop.
- React state batching and stale closures are not modelled: each handler is applied to the state it is given.
- Toast wording, layout, animation and routing are not modelled. Toasts are tags.
- Presentation and mock pages are not modelled: the sticky header, nav, logo, company card, the older question card, the mock dashboard and the index page.
- The code and the published design disagree in two places, and the model follows the code:
  - The professional dashboard reads `session?.email`, but the session record has no email field, so as written every help request there only opens the gate. ProDashboard.HelpRequest takes the email as a parameter so both branches are modelled.
  - The category drop-down offers "behavioral", but the sample questions use "technical" and "hr" (ProDashboard.BehavioralSelectsNoSample).

## Findings

| source | as written | input that shows it | evidently intended | confidence | as-written member | corrected member |
|---|---|---|---|---|---|---|
| src/components/GmailCapture.tsx:51 | `onSuccess()` is called unguarded inside the `try`; the professional dashboard (src/pages/enhanced/ProfessionalDashboard.tsx:492-495) passes no `onSuccess` | a valid email whose save succeeds in the professional dashboard | the dialog closes and only the success toast is shown; the callback is optional | not executed | GmailCapture.MissingCallbackReportsError | GmailCapture.SubmitWithOptionalCallback |
| src/data/companies.ts:154 | the lookup `baseQuestions[companyId]` before its empty-list fallback also finds members every object inherits | company id "toString" or "constructor" | any id without a pack gets the empty list | not executed | Companies.InheritedNameEscapesFallback | Companies.GetCompanyQuestions |
| src/components/upload/ProfessionalUpload.tsx:214 | the chooser's "Upload Resume" card calls `fileInputRef.current?.click()`, but the only input with that ref (lines 363-369) is mounted inside the résumé panel, which only the file handler opens | a click on "Upload Resume" from the initial chooser | the file picker opens, and an accepted file switches to the résumé panel and is uploaded | not executed | Upload.ResumePanelUnreachable | Upload.ResumeCardIntended |

=== FILE: api.dfy ===
/**
 * The records exchanged with the analysis and coaching endpoints: a question,
 * the analysis ("phase 1") response and the coaching ("phase 2") response.
 */
module Api {
  import opened Wrappers

  datatype Category = Technical | Behavioral | Hr
  datatype Difficulty = Easy | Medium | Hard

  /** The wire spelling of a category. */
  function CategoryName(c: Category): string {
    match c
    case Technical => "technical"
    case Behavioral => "behavioral"
    case Hr => "hr"
  }

  /** The wire spelling of a difficulty. */
  function DifficultyName(d: Difficulty): string {
    match d
    case Easy => "easy"
    case Medium => "medium"
    case Hard => "hard"
  }

  datatype Question = Question(
    id: string,
    category: Category,
    difficulty: Difficulty,
    text: string,
    tags: seq<string>,
    answer: Option<string>)

  /** The four 0-100 scores of an analysis. */
  datatype Evaluation = Evaluation(
    dhraviqScore: real,
    atsScore: real,
    contentScore: real,
    impactScore: real)

  datatype Phase1Response = Phase1Response(
    evaluation: Evaluation,
    summary: string,
    questions: seq<Question>)

  datatype CoachResponse = CoachResponse(
    modelAnswer60s: string,
    keyPoints: seq<string>,
    commonPitfalls: seq<string>,
    goodPhrases: seq<string>,
    followupsToExpect: seq<string>)

  datatype Phase2Response = Phase2Response(coach: CoachResponse)

  /** The set of ids of a list of questions. */
  function Ids(qs: seq<Question>): set<string> {
    set q | q in qs :: q.id
  }

  /** `qs.find(q => q.id === id)`: the first question with that id. */
  function FindById(qs: seq<Question>, id: string): (r: Option<Question>)
    ensures r.None? <==> id !in Ids(qs)
    ensures r.Some? ==> exists i :: 0 <= i < |qs| && qs[i] == r.value && r.value.id == id
                                    && forall j :: 0 <= j < i ==> qs[j].id != id
  {
    if |qs| == 0 then None
    else if qs[0].id == id then Some(qs[0])
    else
      var r := FindById(qs[1..], id);
      assert Ids(qs) == {qs[0].id} + Ids(qs[1..]) by {
        assert qs == [qs[0]] + qs[1..];
      }
      if r.Some? then
        var i :| 0 <= i < |qs[1..]| && qs[1..][i] == r.value && r.value.id == id
                 && forall j :: 0 <= j < i ==> qs[1..][j].id != id;
        assert qs[i + 1] == r.value;
        r
      else r
  }

  /** Searching a concatenation searches the first part first. */
  lemma {:induction false} FindByIdAppend(a: seq<Question>, b: seq<Question>, id: string)
    ensures FindById(a + b, id) == if FindById(a, id).Some? then FindById(a, id) else FindById(b, id)
    decreases |a|
  {
    if |a| > 0 {
      assert (a + b)[1..] == a[1..] + b;
      FindByIdAppend(a[1..], b, id);
    } else {
      assert a + b == b;
    }
  }

  /** The last question with that id, which wins when the list is stored keyed by id. */
  function LastWithId(qs: seq<Question>, id: string): (r: Option<Question>)
    ensures r.None? <==> id !in Ids(qs)
    ensures r.Some? ==> exists i :: 0 <= i < |qs| && qs[i] == r.value && r.value.id == id
                                    && forall j :: i < j < |qs| ==> qs[j].id != id
  {
    if |qs| == 0 then None
    else
      var later := LastWithId(qs[1..], id);
      assert Ids(qs) == {qs[0].id} + Ids(qs[1..]) by {
        assert qs == [qs[0]] + qs[1..];
      }
      if later.Some? then
        var i :| 0 <= i < |qs[1..]| && qs[1..][i] == later.value && later.value.id == id
                 && forall j :: i < j < |qs[1..]| ==> qs[1..][j].id != id;
        assert qs[i + 1] == later.value;
        later
      else if qs[0].id == id then
        assert forall j :: 0 < j < |qs| ==> qs[j].id != id by {
          forall j | 0 < j < |qs| ensures qs[j].id != id {
            assert qs[j] == qs[1..][j - 1];
            assert qs[j] in qs[1..];
          }
        }
        Some(qs[0])
      else None
  }
}

=== FILE: coaching.dfy ===
/**
 * The coaching workflow of the enhanced dashboard: a help request checks the
 * session, then the answer cache, then the email gate, then fetches. The
 * controller's state is immutable; each handler returns the next state, the
 * next store and the trace of outside interactions it made. The gate oracle,
 * the remote result and the cache write's success are parameters.
 */
module Coaching {
  import opened Wrappers
  import opened Api
  import Seqs
  import Storage
  import SessionManager
  import Companies
  import QuestionCard
  import GmailCapture

  type SessionData = SessionManager.SessionData

  datatype Toast = NoSession | CoachingReady | HelpFailed

  /** One interaction with the outside, in the order made. */
  datatype Event =
    | Notify(toast: Toast)
    | LookUpCache(questionId: string, sessionId: string)
    | CheckGate
    | CallCoach(questionId: string, question: string, profile: string)
    | WriteCache(questionId: string, sessionId: string, answer: string)

  /** The remote coaching call's outcome. */
  datatype Remote = Answered(response: Phase2Response) | RequestFailed

  datatype Controller = Controller(
    section: string,
    helpAnswers: map<string, string>,
    visible: set<string>,
    loading: set<string>,
    showGate: bool,
    pending: Option<string>)

  const Initial: Controller := Controller("questions", map[], {}, {}, false, None)

  datatype Step = Step(ctrl: Controller, store: Storage.Store, trace: seq<Event>)

  /** The number of remote coaching calls in a trace. */
  function CoachCalls(trace: seq<Event>): nat {
    if |trace| == 0 then 0
    else (if trace[0].CallCoach? then 1 else 0) + CoachCalls(trace[1..])
  }

  lemma {:induction false} CoachCallsAppend(a: seq<Event>, b: seq<Event>)
    ensures CoachCalls(a + b) == CoachCalls(a) + CoachCalls(b)
    decreases |a|
  {
    if |a| == 0 {
      assert a + b == b;
    } else {
      assert (a + b)[1..] == a[1..] + b;
      CoachCallsAppend(a[1..], b);
    }
  }

  lemma {:induction false} NoCoachCalls(trace: seq<Event>)
    requires forall i :: 0 <= i < |trace| ==> !trace[i].CallCoach?
    ensures CoachCalls(trace) == 0
    decreases |trace|
  {
    if |trace| > 0 {
      assert forall i :: 0 <= i < |trace| - 1 ==> trace[1..][i] == trace[i + 1];
      NoCoachCalls(trace[1..]);
    }
  }

  /** The questions a help request can name: the session's, then the HR bank. */
  function AllQuestions(session: Option<SessionData>): (r: seq<Question>)
    ensures session.None? ==> r == Companies.HrBankQuestions
    ensures |r| == |Companies.HrBankQuestions| + (if session.Some? then |session.value.analysis.questions| else 0)
    ensures session.Some? ==> r[..|session.value.analysis.questions|] == session.value.analysis.questions
    ensures r[|r| - |Companies.HrBankQuestions|..] == Companies.HrBankQuestions
  {
    if session.Some? then session.value.analysis.questions + Companies.HrBankQuestions
    else Companies.HrBankQuestions
  }

  /** The question a fetch resolves: the first id match among the session's questions, then the HR bank. */
  function ResolveQuestion(session: SessionData, questionId: string): (r: Option<Question>)
    ensures r.Some? <==> questionId in Ids(AllQuestions(Some(session)))
    ensures FindById(session.analysis.questions, questionId).Some? ==>
              r == FindById(session.analysis.questions, questionId)
    ensures FindById(session.analysis.questions, questionId).None? ==>
              r == FindById(Companies.HrBankQuestions, questionId)
  {
    FindByIdAppend(session.analysis.questions, Companies.HrBankQuestions, questionId);
    FindById(AllQuestions(Some(session)), questionId)
  }

  /** Entering a fetch marks the question as loading and changes nothing else. */
  function BeginFetch(c: Controller, questionId: string): (r: Controller)
    ensures questionId in r.loading
    ensures forall k :: k != questionId ==> (k in r.loading <==> k in c.loading)
    ensures r.helpAnswers == c.helpAnswers && r.visible == c.visible
    ensures r.pending == c.pending && r.showGate == c.showGate && r.section == c.section
  {
    c.(loading := c.loading + {questionId})
  }

  /**
   * The fetch's completion, applied to whatever the state is by then. On an
   * answer it is recorded and revealed, then cached; a failing cache write
   * falls into the same error toast. The question always leaves the loading
   * set, and no other question's entries change.
   */
  function SettleFetch(
    c: Controller, store: Storage.Store, session: SessionData, questionId: string,
    remote: Remote, cacheWritable: bool, now: int): (r: Step)
    ensures questionId !in r.ctrl.loading
    ensures forall k :: k != questionId ==> (k in r.ctrl.loading <==> k in c.loading)
    ensures forall k :: k != questionId ==> (k in r.ctrl.visible <==> k in c.visible)
    ensures forall k :: k != questionId && k in c.helpAnswers ==> k in r.ctrl.helpAnswers && r.ctrl.helpAnswers[k] == c.helpAnswers[k]
    ensures r.ctrl.helpAnswers.Keys <= c.helpAnswers.Keys + {questionId}
    ensures r.ctrl.pending == c.pending && r.ctrl.showGate == c.showGate && r.ctrl.section == c.section
    ensures CoachCalls(r.trace) == 0
    ensures remote.Answered? ==>
              var answer := remote.response.coach.modelAnswer60s;
              && questionId in r.ctrl.helpAnswers && r.ctrl.helpAnswers[questionId] == answer
              && questionId in r.ctrl.visible
    ensures remote.Answered? && cacheWritable ==>
              var answer := remote.response.coach.modelAnswer60s;
              && r.store == Storage.SaveAnswer(store, questionId, session.id, answer, now)
              && r.trace == [WriteCache(questionId, session.id, answer), Notify(CoachingReady)]
    ensures remote.RequestFailed? ==>
              && r.ctrl.helpAnswers == c.helpAnswers && r.ctrl.visible == c.visible
              && r.trace == [Notify(HelpFailed)]
    ensures !(remote.Answered? && cacheWritable) ==> r.store == store && Notify(HelpFailed) in r.trace
  {
    match remote
    case Answered(response) =>
      var answer := response.coach.modelAnswer60s;
      var shown := c.(helpAnswers := c.helpAnswers[questionId := answer], visible := c.visible + {questionId});
      var settled := shown.(loading := shown.loading - {questionId});
      NoCoachCalls([WriteCache(questionId, session.id, answer), Notify(CoachingReady)]);
      NoCoachCalls([Notify(HelpFailed)]);
      if cacheWritable then
        Step(settled, Storage.SaveAnswer(store, questionId, session.id, answer, now),
             [WriteCache(questionId, session.id, answer), Notify(CoachingReady)])
      else
        Step(settled, store, [Notify(HelpFailed)])
    case RequestFailed =>
      NoCoachCalls([Notify(HelpFailed)]);
      Step(c.(loading := c.loading - {questionId}), store, [Notify(HelpFailed)])
  }

  /**
   * fetchHelpAnswer: without a session or a matching question nothing at all
   * happens; otherwise exactly one coaching call, with the question's text and
   * the resume, followed by the settlement.
   */
  function FetchHelpAnswer(
    c: Controller, store: Storage.Store, session: Option<SessionData>, questionId: string,
    remote: Remote, cacheWritable: bool, now: int): (r: Step)
    ensures session.None? ==> r == Step(c, store, [])
    ensures session.Some? && ResolveQuestion(session.value, questionId).None? ==> r == Step(c, store, [])
    ensures session.Some? && ResolveQuestion(session.value, questionId).Some? ==>
              var q := ResolveQuestion(session.value, questionId).value;
              && CoachCalls(r.trace) == 1
              && r.trace[0] == CallCoach(questionId, q.text, session.value.resumeText)
              && r == var s := SettleFetch(BeginFetch(c, questionId), store, session.value, questionId, remote, cacheWritable, now);
                      Step(s.ctrl, s.store, [r.trace[0]] + s.trace)
  {
    if session.None? then Step(c, store, [])
    else
      var s := session.value;
      match ResolveQuestion(s, questionId)
      case None => Step(c, store, [])
      case Some(q) =>
        var settled := SettleFetch(BeginFetch(c, questionId), store, s, questionId, remote, cacheWritable, now);
        var call := CallCoach(questionId, q.text, s.resumeText);
        CoachCallsAppend([call], settled.trace);
        Step(settled.ctrl, settled.store, [call] + settled.trace)
  }

  /**
   * handleHelpRequest: session, then cache, then gate, then fetch. A cache
   * hit reveals the cached answer without consulting the gate; a miss without
   * an email remembers the question and opens the gate.
   */
  function HandleHelpRequest(
    c: Controller, store: Storage.Store, session: Option<SessionData>, questionId: string,
    hasGmail: bool, remote: Remote, cacheWritable: bool, now: int): (r: Step)
    ensures session.None? ==> r == Step(c, store, [Notify(NoSession)])
    ensures session.Some? ==> |r.trace| > 0 && r.trace[0] == LookUpCache(questionId, session.value.id)
    ensures session.Some? && Storage.GetAnswer(store, questionId, session.value.id).Some? ==>
              var cached := Storage.GetAnswer(store, questionId, session.value.id).value;
              && r.trace == [LookUpCache(questionId, session.value.id)]
              && r.store == store
              && r.ctrl == c.(helpAnswers := c.helpAnswers[questionId := cached], visible := c.visible + {questionId})
    ensures session.Some? && Storage.GetAnswer(store, questionId, session.value.id).None? ==>
              |r.trace| >= 2 && r.trace[..2] == [LookUpCache(questionId, session.value.id), CheckGate]
    ensures session.Some? && Storage.GetAnswer(store, questionId, session.value.id).None? && !hasGmail ==>
              && r.trace == [LookUpCache(questionId, session.value.id), CheckGate]
              && r.store == store
              && r.ctrl == c.(pending := Some(questionId), showGate := true)
    ensures session.Some? && Storage.GetAnswer(store, questionId, session.value.id).None? && hasGmail ==>
              var f := FetchHelpAnswer(c, store, session, questionId, remote, cacheWritable, now);
              r == Step(f.ctrl, f.store, r.trace[..2] + f.trace)
    ensures CoachCalls(r.trace) <= 1
    ensures CoachCalls(r.trace) == 1 ==> hasGmail
  {
    NoCoachCalls([Notify(NoSession)]);
    if session.None? then Step(c, store, [Notify(NoSession)])
    else
      var s := session.value;
      var lookup := LookUpCache(questionId, s.id);
      NoCoachCalls([lookup]);
      NoCoachCalls([lookup, CheckGate]);
      match Storage.GetAnswer(store, questionId, s.id)
      case Some(cached) =>
        Step(c.(helpAnswers := c.helpAnswers[questionId := cached], visible := c.visible + {questionId}),
             store, [lookup])
      case None =>
        if !hasGmail then
          Step(c.(pending := Some(questionId), showGate := true), store, [lookup, CheckGate])
        else
          var f := FetchHelpAnswer(c, store, session, questionId, remote, cacheWritable, now);
          CoachCallsAppend([lookup, CheckGate], f.trace);
          Step(f.ctrl, f.store, [lookup, CheckGate] + f.trace)
  }

  /**
   * handleGmailSuccess: a pending (truthy) id is fetched once, without another
   * cache or gate check, and then cleared; otherwise nothing happens.
   */
  function HandleGmailSuccess(
    c: Controller, store: Storage.Store, session: Option<SessionData>,
    remote: Remote, cacheWritable: bool, now: int): (r: Step)
    ensures c.pending.None? || c.pending.value == "" ==> r == Step(c, store, [])
    ensures c.pending.Some? && c.pending.value != "" ==>
              && r.ctrl.pending.None?
              && var f := FetchHelpAnswer(c, store, session, c.pending.value, remote, cacheWritable, now);
                 r == Step(f.ctrl.(pending := None), f.store, f.trace)
    ensures CoachCalls(r.trace) <= 1
  {
    if c.pending.Some? && c.pending.value != "" then
      var f := FetchHelpAnswer(c, store, session, c.pending.value, remote, cacheWritable, now);
      Step(f.ctrl.(pending := None), f.store, f.trace)
    else Step(c, store, [])
  }

  /**
   * Submitting the gate dialog on this dashboard: the dialog's submit runs
   * with the callback present; on success the pending request resumes and the
   * dialog closes.
   */
  function SubmitGate(
    c: Controller, email: string, saved: bool, store: Storage.Store, session: Option<SessionData>,
    remote: Remote, cacheWritable: bool, now: int): (r: Step)
    ensures !(GmailCapture.ValidEmail(email) && saved) ==> r == Step(c, store, [])
    ensures GmailCapture.ValidEmail(email) && saved ==>
              var g := HandleGmailSuccess(c, store, session, remote, cacheWritable, now);
              r == Step(g.ctrl.(showGate := false), g.store, g.trace)
  {
    var submitted := GmailCapture.Submit(GmailCapture.Form(email, false, c.showGate), saved, true);
    if submitted.onSuccessCalled then
      var g := HandleGmailSuccess(c, store, session, remote, cacheWritable, now);
      Step(g.ctrl.(showGate := submitted.form.open), g.store, g.trace)
    else Step(c, store, [])
  }

  /** handleAnswerToggle flips one id's visibility and no other. */
  function HandleAnswerToggle(c: Controller, questionId: string): (r: Controller)
    ensures questionId in r.visible <==> questionId !in c.visible
    ensures forall k :: k != questionId ==> (k in r.visible <==> k in c.visible)
    ensures r.(visible := c.visible) == c
  {
    c.(visible := Seqs.Toggle(c.visible, questionId))
  }

  lemma AnswerToggleTwice(c: Controller, questionId: string)
    ensures HandleAnswerToggle(HandleAnswerToggle(c, questionId), questionId) == c
  {
    Seqs.ToggleTwice(c.visible, questionId);
  }

  /** handleQuestionSelect: HR and behavioural questions open the HR bank, technical ones the question list. */
  function HandleQuestionSelect(c: Controller, q: Question): (r: Controller)
    ensures r.section == "hr-bank" <==> !q.category.Technical?
    ensures r.section == "questions" <==> q.category.Technical?
    ensures r.(section := c.section) == c
  {
    assert |"hr-bank"| != |"questions"|;
    c.(section := if q.category.Hr? || q.category.Behavioral? then "hr-bank" else "questions")
  }

  /** The card props the dashboard passes for a question. */
  function CardProps(c: Controller, q: Question, isCompact: bool): QuestionCard.Props {
    QuestionCard.Props(
      q, true, q.id in c.visible, isCompact,
      if q.id in c.helpAnswers then Some(c.helpAnswers[q.id]) else None,
      q.id in c.loading)
  }

  /** A click on a card's help button: it reaches the controller only when the card is expanded and the button is enabled. */
  function ClickHelp(
    c: Controller, q: Question, isExpanded: bool, store: Storage.Store, session: Option<SessionData>,
    hasGmail: bool, remote: Remote, cacheWritable: bool, now: int): (r: Step)
    ensures q.id in c.loading ==> r == Step(c, store, [])
    ensures !isExpanded ==> r == Step(c, store, [])
    ensures q.id !in c.loading && isExpanded ==>
              r == HandleHelpRequest(c, store, session, q.id, hasGmail, remote, cacheWritable, now)
  {
    match QuestionCard.HelpClick(CardProps(c, q, false), isExpanded)
    case Some(id) => HandleHelpRequest(c, store, session, id, hasGmail, remote, cacheWritable, now)
    case None => Step(c, store, [])
  }

  /**
   * From controller to card: once a non-empty answer has been settled, the
   * question's expanded card shows the coaching panel, an enabled help button
   * and a "Hide Answer" toggle, whether the card is compact or not.
   */
  lemma SettledAnswerIsShown(
    c: Controller, store: Storage.Store, session: SessionData, q: Question,
    response: Phase2Response, cacheWritable: bool, now: int, isCompact: bool)
    requires response.coach.modelAnswer60s != ""
    ensures var r := SettleFetch(c, store, session, q.id, Answered(response), cacheWritable, now);
            var v := QuestionCard.Render(CardProps(r.ctrl, q, isCompact), true);
            && v.coachingPanel
            && !v.helpDisabled
            && v.answerToggleLabel == Some("Hide Answer")
  {
  }

  /**
   * The controller alone has no in-flight guard: a request for a question
   * already loading issues another coaching call.
   */
  lemma NoInFlightGuard(
    c: Controller, store: Storage.Store, s: SessionData, questionId: string,
    remote: Remote, cacheWritable: bool, now: int)
    requires questionId in c.loading
    requires Storage.GetAnswer(store, questionId, s.id).None?
    requires questionId in Ids(AllQuestions(Some(s)))
    ensures CoachCalls(HandleHelpRequest(c, store, Some(s), questionId, true, remote, cacheWritable, now).trace) == 1
  {
    var f := FetchHelpAnswer(c, store, Some(s), questionId, remote, cacheWritable, now);
    var r := HandleHelpRequest(c, store, Some(s), questionId, true, remote, cacheWritable, now);
    CoachCallsAppend(r.trace[..2], f.trace);
  }

  /** A cached answer is revealed without a coaching call. */
  lemma CacheHitMakesNoCall(
    c: Controller, store: Storage.Store, s: SessionData, questionId: string,
    hasGmail: bool, remote: Remote, cacheWritable: bool, now: int)
    requires Storage.GetAnswer(store, questionId, s.id).Some?
    ensures var r := HandleHelpRequest(c, store, Some(s), questionId, hasGmail, remote, cacheWritable, now);
            && CoachCalls(r.trace) == 0
            && questionId in r.ctrl.helpAnswers
            && r.ctrl.helpAnswers[questionId] == Storage.GetAnswer(store, questionId, s.id).value
            && questionId in r.ctrl.visible
  {
    NoCoachCalls([LookUpCache(questionId, s.id)]);
  }

  /** A question that resolves nowhere makes no call and leaves the store alone. */
  lemma UnresolvedMakesNoCall(
    c: Controller, store: Storage.Store, s: SessionData, questionId: string,
    hasGmail: bool, remote: Remote, cacheWritable: bool, now: int)
    requires questionId !in Ids(AllQuestions(Some(s)))
    ensures var r := HandleHelpRequest(c, store, Some(s), questionId, hasGmail, remote, cacheWritable, now);
            CoachCalls(r.trace) == 0 && r.store == store
  {
    var r := HandleHelpRequest(c, store, Some(s), questionId, hasGmail, remote, cacheWritable, now);
    if Storage.GetAnswer(store, questionId, s.id).Some? {
      CacheHitMakesNoCall(c, store, s, questionId, hasGmail, remote, cacheWritable, now);
    } else if hasGmail {
      CoachCallsAppend(r.trace[..2], []);
      NoCoachCalls(r.trace[..2]);
    } else {
      NoCoachCalls(r.trace);
    }
  }

  /** An answered, cacheable fetch leaves the answer readable from the store. */
  lemma AnsweredFetchIsCached(
    c: Controller, store: Storage.Store, s: SessionData, questionId: string,
    response: Phase2Response, now: int)
    requires Storage.GetAnswer(store, questionId, s.id).None?
    requires questionId in Ids(AllQuestions(Some(s)))
    requires response.coach.modelAnswer60s != ""
    ensures var r := HandleHelpRequest(c, store, Some(s), questionId, true, Answered(response), true, now);
            && CoachCalls(r.trace) == 1
            && Storage.GetAnswer(r.store, questionId, s.id) == Some(response.coach.modelAnswer60s)
  {
    var answer := response.coach.modelAnswer60s;
    var f := FetchHelpAnswer(c, store, Some(s), questionId, Answered(response), true, now);
    assert f.store == Storage.SaveAnswer(store, questionId, s.id, answer, now);
  }

  /**
   * Two requests in succession make at most one coaching call when the first
   * one's answer is non-empty and gets cached; the second reveals that answer.
   */
  lemma SecondRequestHitsCache(
    c: Controller, store: Storage.Store, s: SessionData, questionId: string,
    response: Phase2Response, now: int, r1: Step,
    hasGmail2: bool, remote2: Remote, cacheWritable2: bool, now2: int, r2: Step)
    requires response.coach.modelAnswer60s != ""
    requires r1 == HandleHelpRequest(c, store, Some(s), questionId, true, Answered(response), true, now)
    requires r2 == HandleHelpRequest(r1.ctrl, r1.store, Some(s), questionId, hasGmail2, remote2, cacheWritable2, now2)
    ensures CoachCalls(r1.trace) + CoachCalls(r2.trace) <= 1
    ensures CoachCalls(r1.trace) == 1 ==>
              && CoachCalls(r2.trace) == 0
              && questionId in r2.ctrl.helpAnswers
              && r2.ctrl.helpAnswers[questionId] == response.coach.modelAnswer60s
              && questionId in r2.ctrl.visible
  {
    if Storage.GetAnswer(store, questionId, s.id).Some? {
      CacheHitMakesNoCall(c, store, s, questionId, true, Answered(response), true, now);
      assert CoachCalls(r2.trace) <= 1;
    } else if questionId !in Ids(AllQuestions(Some(s))) {
      UnresolvedMakesNoCall(c, store, s, questionId, true, Answered(response), true, now);
      UnresolvedMakesNoCall(r1.ctrl, r1.store, s, questionId, hasGmail2, remote2, cacheWritable2, now2);
    } else {
      AnsweredFetchIsCached(c, store, s, questionId, response, now);
      CacheHitMakesNoCall(r1.ctrl, r1.store, s, questionId, hasGmail2, remote2, cacheWritable2, now2);
    }
  }

  /**
   * The gated path end to end: a request with no cached answer and no email
   * only opens the gate; a successful email save resumes it with exactly one
   * coaching call, reveals and caches the answer and closes the gate; asking
   * again reveals the cached answer with no further call.
   */
  lemma {:induction false} GatedRequestCompletesOnce(
    c: Controller, store: Storage.Store, s: SessionData, questionId: string, email: string,
    response: Phase2Response, now: int, remote3: Remote)
    requires questionId != "" && '@' in email
    requires response.coach.modelAnswer60s != ""
    requires Storage.GetAnswer(store, questionId, s.id).None?
    requires questionId in Ids(AllQuestions(Some(s)))
    ensures var r1 := HandleHelpRequest(c, store, Some(s), questionId, false, Answered(response), true, now);
            && CoachCalls(r1.trace) == 0
            && r1.ctrl.pending == Some(questionId) && r1.ctrl.showGate
            && var r2 := SubmitGate(r1.ctrl, email, true, r1.store, Some(s), Answered(response), true, now);
               && CoachCalls(r2.trace) == 1
               && r2.trace[0].CallCoach? && r2.trace[0].questionId == questionId
               && r2.ctrl.pending.None? && !r2.ctrl.showGate
               && questionId in r2.ctrl.visible && questionId !in r2.ctrl.loading
               && questionId in r2.ctrl.helpAnswers && r2.ctrl.helpAnswers[questionId] == response.coach.modelAnswer60s
               && Storage.GetAnswer(r2.store, questionId, s.id) == Some(response.coach.modelAnswer60s)
               && var r3 := HandleHelpRequest(r2.ctrl, r2.store, Some(s), questionId, true, remote3, true, now);
                  && CoachCalls(r3.trace) == 0
                  && questionId in r3.ctrl.helpAnswers && r3.ctrl.helpAnswers[questionId] == response.coach.modelAnswer60s
  {
    var answer := response.coach.modelAnswer60s;
    var r1 := HandleHelpRequest(c, store, Some(s), questionId, false, Answered(response), true, now);
    assert r1.trace == [LookUpCache(questionId, s.id), CheckGate];
    var r2 := SubmitGate(r1.ctrl, email, true, r1.store, Some(s), Answered(response), true, now);
    var g := HandleGmailSuccess(r1.ctrl, r1.store, Some(s), Answered(response), true, now);
    assert r2.trace == g.trace;
    assert Storage.GetAnswer(r2.store, questionId, s.id) == Some(answer);
  }
}

=== FILE: command_palette.dfy ===
/**
 * The command palette: the Cmd/Ctrl+K open toggle, the navigation entries,
 * the two question groups with their length limits, and the title and
 * subtitle text of each entry.
 */
module CommandPalette {
  import opened Api
  import Strings
  import Seqs

  /** At most this many technical questions are listed. */
  const MaxTechnical: nat := 5
  /** At most this many HR and behavioural questions are listed. */
  const MaxHr: nat := 3
  /** Titles longer than this are cut. */
  const MaxTitle: nat := 60
  const Ellipsis: string := "..."
  /** The bullet between the subtitle's parts. */
  const Separator: string := " \U{2022} "

  // ---------------------------------------------------------------------------
  // Opening and selecting

  /** The keydown handler: "k" with the meta or control key flips the palette; other keys leave it. */
  function KeyDown(open: bool, key: string, metaKey: bool, ctrlKey: bool): (r: bool)
    ensures key == "k" && (metaKey || ctrlKey) ==> r != open
    ensures !(key == "k" && (metaKey || ctrlKey)) ==> r == open
  {
    if key == "k" && (metaKey || ctrlKey) then !open else open
  }

  lemma ShortcutTwiceRestores(open: bool, meta1: bool, ctrl1: bool, meta2: bool, ctrl2: bool)
    requires meta1 || ctrl1
    requires meta2 || ctrl2
    ensures KeyDown(KeyDown(open, "k", meta1, ctrl1), "k", meta2, ctrl2) == open
  {
  }

  /** What an entry hands to the page when chosen. */
  datatype Entry = Navigate(section: string) | Pick(question: Question)

  /** The navigation group, in display order. */
  const NavigationEntries: seq<Entry> := [Navigate("questions"), Navigate("company-packs"), Navigate("hr-bank")]

  datatype Chosen = Chosen(open: bool, delivered: Entry)

  /** Choosing any entry delivers it to its callback and closes the palette. */
  function Choose(open: bool, e: Entry): (r: Chosen)
    ensures !r.open && r.delivered == e
  {
    Chosen(false, e)
  }

  // ---------------------------------------------------------------------------
  // Groups

  predicate IsTechnical(q: Question) { q.category == Technical }
  predicate IsHrOrBehavioral(q: Question) { q.category.Behavioral? || q.category.Hr? }

  /** The technical group: the first five technical questions, in order. */
  function TechnicalGroup(qs: seq<Question>): (r: seq<Question>)
    ensures |r| <= MaxTechnical
    ensures forall q :: q in r ==> q in qs && IsTechnical(q)
    ensures Seqs.IsSubsequence(r, qs)
    ensures |r| < MaxTechnical ==> forall q :: q in qs && IsTechnical(q) ==> q in r
    ensures |r| == Seqs.Min(MaxTechnical, CountWhere(qs, IsTechnical))
    ensures r <= Seqs.Filter(qs, IsTechnical)
  {
    Group(qs, IsTechnical, MaxTechnical)
  }

  /** The HR and behavioural group: the first three such questions, in order. */
  function HrGroup(qs: seq<Question>): (r: seq<Question>)
    ensures |r| <= MaxHr
    ensures forall q :: q in r ==> q in qs && IsHrOrBehavioral(q)
    ensures Seqs.IsSubsequence(r, qs)
    ensures |r| < MaxHr ==> forall q :: q in qs && IsHrOrBehavioral(q) ==> q in r
    ensures |r| == Seqs.Min(MaxHr, CountWhere(qs, IsHrOrBehavioral))
    ensures r <= Seqs.Filter(qs, IsHrOrBehavioral)
  {
    Group(qs, IsHrOrBehavioral, MaxHr)
  }

  /** `qs.filter(p).slice(0, limit)`. */
  function Group(qs: seq<Question>, p: Question -> bool, limit: nat): (r: seq<Question>)
    ensures |r| <= limit
    ensures forall q :: q in r ==> q in qs && p(q)
    ensures Seqs.IsSubsequence(r, qs)
    ensures |r| < limit ==> forall q :: q in qs && p(q) ==> q in r
    ensures |r| == Seqs.Min(limit, CountWhere(qs, p))
    ensures r <= Seqs.Filter(qs, p)
  {
    var all := Seqs.Filter(qs, p);
    var r := Seqs.Take(all, limit);
    Seqs.PrefixIsSubsequence(r, all);
    Seqs.SubsequenceTransitive(r, all, qs);
    assert forall q :: q in r ==> q in all by {
      forall q | q in r ensures q in all {
        var i :| 0 <= i < |r| && r[i] == q;
        assert all[i] == q;
      }
    }
    r
  }

  /** The number of questions in qs satisfying p. */
  function CountWhere(qs: seq<Question>, p: Question -> bool): nat {
    |Seqs.Filter(qs, p)|
  }

  /**
   * "The first `limit`" made exact: a matching question is listed whenever
   * fewer than `limit` matching questions precede it.
   */
  lemma GroupListsEarlyMatches(qs: seq<Question>, p: Question -> bool, limit: nat, i: nat)
    requires i < |qs| && p(qs[i])
    requires CountWhere(qs[..i], p) < limit
    ensures qs[i] in Group(qs, p, limit)
  {
    var before := Seqs.Filter(qs[..i], p);
    assert qs == qs[..i] + ([qs[i]] + qs[i + 1..]);
    Seqs.FilterAppend(qs[..i], [qs[i]] + qs[i + 1..], p);
    Seqs.FilterAppend([qs[i]], qs[i + 1..], p);
    assert Seqs.Filter([qs[i]], p) == [qs[i]] by {
      assert [qs[i]][1..] == [];
    }
    var all := Seqs.Filter(qs, p);
    assert all[|before|] == qs[i];
    assert Seqs.Take(all, limit)[|before|] == qs[i];
  }

  lemma TechnicalGroupListsEarly(qs: seq<Question>, i: nat)
    requires i < |qs| && IsTechnical(qs[i])
    requires CountWhere(qs[..i], IsTechnical) < MaxTechnical
    ensures qs[i] in TechnicalGroup(qs)
  {
    GroupListsEarlyMatches(qs, IsTechnical, MaxTechnical, i);
  }

  lemma HrGroupListsEarly(qs: seq<Question>, i: nat)
    requires i < |qs| && IsHrOrBehavioral(qs[i])
    requires CountWhere(qs[..i], IsHrOrBehavioral) < MaxHr
    ensures qs[i] in HrGroup(qs)
  {
    GroupListsEarlyMatches(qs, IsHrOrBehavioral, MaxHr, i);
  }

  /** The two groups never share a question. */
  lemma GroupsDisjoint(qs: seq<Question>, q: Question)
    requires q in TechnicalGroup(qs)
    ensures q !in HrGroup(qs)
  {
  }

  // ---------------------------------------------------------------------------
  // Entry text

  /** A title over 60 characters keeps its first 60 and gains "..."; a shorter one is shown whole. */
  function Truncate(title: string): (r: string)
    ensures |title| <= MaxTitle ==> r == title
    ensures |title| > MaxTitle ==> |r| == MaxTitle + |Ellipsis| && r[..MaxTitle] == title[..MaxTitle]
                                    && r[MaxTitle..] == Ellipsis
    ensures |r| <= MaxTitle + |Ellipsis|
  {
    if |title| > MaxTitle then title[..MaxTitle] + Ellipsis else title
  }

  /** Truncating a shown title again changes nothing. */
  lemma TruncateIdempotent(title: string)
    ensures Truncate(Truncate(title)) == Truncate(title)
  {
    if |title| > MaxTitle {
      var r := Truncate(title);
      assert r[..MaxTitle] + Ellipsis == r;
    }
  }

  /** The technical subtitle: the difficulty, a bullet, and the first two tags joined by ", ". */
  function TechnicalSubtitle(q: Question): string {
    DifficultyName(q.difficulty) + Separator + Strings.Join(Seqs.Take(q.tags, 2), ", ")
  }

  /** The subtitle's tag part, case by case on the number of tags. */
  lemma TechnicalSubtitleCases(q: Question)
    ensures |q.tags| == 0 ==> TechnicalSubtitle(q) == DifficultyName(q.difficulty) + Separator
    ensures |q.tags| == 1 ==> TechnicalSubtitle(q) == DifficultyName(q.difficulty) + Separator + q.tags[0]
    ensures |q.tags| >= 2 ==>
              TechnicalSubtitle(q) == DifficultyName(q.difficulty) + Separator + q.tags[0] + ", " + q.tags[1]
  {
    var shown := Seqs.Take(q.tags, 2);
    if |q.tags| == 0 {
      assert shown == [];
      assert DifficultyName(q.difficulty) + Separator + "" == DifficultyName(q.difficulty) + Separator;
    } else if |q.tags| >= 2 {
      assert shown[1..] == [q.tags[1]];
      assert Strings.Join(shown, ", ") == q.tags[0] + ", " + q.tags[1];
    }
  }

  /** The HR subtitle: the difficulty, a bullet, and the category. */
  function HrSubtitle(q: Question): (r: string)
    ensures |r| == |DifficultyName(q.difficulty)| + |Separator| + |CategoryName(q.category)|
    ensures r[..|DifficultyName(q.difficulty)|] == DifficultyName(q.difficulty)
    ensures r[|DifficultyName(q.difficulty)|..|DifficultyName(q.difficulty)| + |Separator|] == Separator
    ensures r[|r| - |CategoryName(q.category)|..] == CategoryName(q.category)
  {
    DifficultyName(q.difficulty) + Separator + CategoryName(q.category)
  }
}

=== FILE: companies.dfy ===
/**
 * Static reference data: the company list, the per-company question packs and
 * the HR question bank.
 */
module Companies {
  import opened Wrappers
  import opened Api

  datatype PackDifficulty = Mixed | MediumPack | HardPack

  /** A company card; an absent `featured` flag is stored as false. */
  datatype Company = Company(
    id: string,
    name: string,
    logo: string,
    description: string,
    questionCount: nat,
    difficulty: PackDifficulty,
    lastUpdated: string,
    featured: bool)

  const AllCompanies: seq<Company> := [
    Company("google", "Google", "\U{1F1EC}",
      "System design, algorithms, and Google-specific culture questions", 75, HardPack, "2024-01-15", true),
    Company("microsoft", "Microsoft", "\U{1F1F2}",
      "Technical depth, Azure, and collaborative problem-solving", 68, HardPack, "2024-01-12", true),
    Company("amazon", "Amazon", "\U{1F1E6}",
      "Leadership principles, scalability, and customer obsession", 82, HardPack, "2024-01-18", true),
    Company("meta", "Meta", "\U{1F1EB}",
      "Product thinking, React/JS expertise, and social impact", 61, MediumPack, "2024-01-10", true),
    Company("apple", "Apple", "\U{1F34E}",
      "iOS development, design principles, and attention to detail", 54, MediumPack, "2024-01-08", false),
    Company("netflix", "Netflix", "\U{1F1F3}",
      "Microservices, streaming tech, and data-driven decisions", 43, HardPack, "2024-01-05", false),
    Company("uber", "Uber", "\U{1F697}",
      "Real-time systems, geolocation, and marketplace dynamics", 47, MediumPack, "2024-01-14", false),
    Company("airbnb", "Airbnb", "\U{1F3E0}",
      "Trust & safety, community building, and travel tech", 39, MediumPack, "2024-01-11", false)
  ]

  const GooglePack: seq<Question> := [
    Question("google-1", Technical, Hard,
      "Design a URL shortener like bit.ly that can handle 100M URLs per day.",
      ["system-design", "scalability", "distributed-systems"], None),
    Question("google-2", Technical, Medium,
      "Implement a function to find all anagrams in a list of strings.",
      ["algorithms", "hash-tables", "strings"], None),
    Question("google-3", Behavioral, Medium,
      "Tell me about a time you had to make a decision with incomplete information.",
      ["decision-making", "ambiguity", "leadership"], None)
  ]

  const MicrosoftPack: seq<Question> := [
    Question("microsoft-1", Technical, Hard,
      "How would you design a distributed cache system like Redis?",
      ["system-design", "caching", "azure"], None),
    Question("microsoft-2", Technical, Medium,
      "Reverse words in a string while preserving whitespace.",
      ["strings", "algorithms", "parsing"], None)
  ]

  const AmazonPack: seq<Question> := [
    Question("amazon-1", Behavioral, Medium,
      "Describe a time when you had to work with a difficult customer. How did you handle it?",
      ["customer-obsession", "leadership-principles", "conflict-resolution"], None),
    Question("amazon-2", Technical, Hard,
      "Design Amazon's recommendation system.",
      ["machine-learning", "system-design", "personalization"], None)
  ]

  /** The own properties of the object literal the packs are looked up in. */
  function OwnPack(companyId: string): Option<seq<Question>> {
    if companyId == "google" then Some(GooglePack)
    else if companyId == "microsoft" then Some(MicrosoftPack)
    else if companyId == "amazon" then Some(AmazonPack)
    else None
  }

  /** Property names every plain object inherits; each holds a truthy value. */
  const InheritedNames: set<string> := {
    "constructor", "hasOwnProperty", "isPrototypeOf", "propertyIsEnumerable",
    "toLocaleString", "toString", "valueOf", "__proto__",
    "__defineGetter__", "__defineSetter__", "__lookupGetter__", "__lookupSetter__"
  }

  /** What `baseQuestions[companyId] || []` evaluates to: a pack, or an inherited member. */
  datatype PackLookup = Pack(questions: seq<Question>) | InheritedMember(name: string)

  /**
   * The lookup as written: an indexing of a plain object, which also finds the
   * members every object inherits, so those ids escape the `|| []` fallback.
   */
  function GetCompanyQuestionsAsWritten(companyId: string): (r: PackLookup)
    ensures OwnPack(companyId).Some? ==> r == Pack(OwnPack(companyId).value)
    ensures r.InheritedMember? <==> OwnPack(companyId).None? && companyId in InheritedNames
  {
    if OwnPack(companyId).Some? then Pack(OwnPack(companyId).value)
    else if companyId in InheritedNames then InheritedMember(companyId)
    else Pack([])
  }

  /** An inherited member name is an id for which the as-written lookup yields no question list. */
  lemma InheritedNameEscapesFallback()
    ensures GetCompanyQuestionsAsWritten("toString") == InheritedMember("toString")
    ensures GetCompanyQuestionsAsWritten("constructor").InheritedMember?
  {
  }

  /**
   * The company's question pack: the three packed companies get their
   * questions, every id of which starts with the company id and a dash; any
   * other id gets the empty list.
   */
  function GetCompanyQuestions(companyId: string): (r: seq<Question>)
    ensures companyId != "google" && companyId != "microsoft" && companyId != "amazon" ==> r == []
    ensures companyId == "google" || companyId == "microsoft" || companyId == "amazon" ==> |r| > 0
    ensures forall q :: q in r ==> companyId + "-" <= q.id
  {
    OwnPack(companyId).GetOr([])
  }

  /** On every id that is not an inherited member name, the corrected lookup agrees with the original. */
  lemma GetCompanyQuestionsAgrees(companyId: string)
    requires companyId !in InheritedNames
    ensures GetCompanyQuestionsAsWritten(companyId) == Pack(GetCompanyQuestions(companyId))
  {
  }

  const HrBankQuestions: seq<Question> := [
    Question("hr-1", Behavioral, Easy, "Tell me about yourself.",
      ["introduction", "communication", "storytelling"], None),
    Question("hr-2", Behavioral, Medium, "Describe a time when you failed and how you recovered from it.",
      ["failure", "resilience", "learning"], None),
    Question("hr-3", Hr, Easy, "Why do you want to work for our company?",
      ["motivation", "research", "culture-fit"], None),
    Question("hr-4", Behavioral, Medium, "Give an example of when you had to work under pressure.",
      ["pressure", "time-management", "performance"], None),
    Question("hr-5", Behavioral, Hard, "Describe a situation where you had to influence someone without authority.",
      ["influence", "persuasion", "leadership"], None),
    Question("hr-6", Hr, Medium, "What are your salary expectations?",
      ["compensation", "negotiation", "value"], None),
    Question("hr-7", Behavioral, Medium, "Tell me about a time you had to learn something completely new quickly.",
      ["learning", "adaptability", "growth"], None),
    Question("hr-8", Hr, Easy, "Where do you see yourself in 5 years?",
      ["career-planning", "ambition", "growth"], None)
  ]

  /** The HR bank's ids are pairwise distinct and all start with "hr-". */
  lemma HrBankIdsDistinct()
    ensures forall i, j :: 0 <= i < j < |HrBankQuestions| ==> HrBankQuestions[i].id != HrBankQuestions[j].id
    ensures forall q :: q in HrBankQuestions ==> "hr-" <= q.id
  {
  }

  /** The company ids are pairwise distinct. */
  lemma CompanyIdsDistinct()
    ensures forall i, j :: 0 <= i < j < |AllCompanies| ==> AllCompanies[i].id != AllCompanies[j].id
  {
  }
}

=== FILE: gmail_capture.dfy ===
/**
 * The email gate dialog: validation, the save call and its success/failure
 * branching. The result of `saveGmail` and whether the parent passed an
 * `onSuccess` callback are parameters.
 */
module GmailCapture {

  datatype Toast = InvalidEmail | EmailSaved | SaveError

  /** The dialog's state: the typed email, the saving flag and the `open` prop. */
  datatype Form = Form(email: string, isLoading: bool, open: bool)

  /** What one submit did: the final form, whether the save and the callback ran, and the toasts shown. */
  datatype Submitted = Submitted(form: Form, saveCalled: bool, onSuccessCalled: bool, toasts: seq<Toast>)

  /** `!email || !email.includes("@")` rejects; the emptiness test adds nothing to the `@` test. */
  function ValidEmail(email: string): (ok: bool)
    ensures ok <==> '@' in email
  {
    email != "" && '@' in email
  }

  /** The submit button is disabled while saving or while the field is empty. */
  function SubmitDisabled(f: Form): (disabled: bool)
    ensures f.email == "" ==> disabled
    ensures f.isLoading ==> disabled
    ensures !disabled ==> f.email != "" && !f.isLoading
  {
    f.isLoading || f.email == ""
  }

  /** The state while the save is awaited. */
  function Saving(f: Form): (r: Form)
    ensures r.isLoading && r.email == f.email && r.open == f.open
  {
    f.(isLoading := true)
  }

  /**
   * handleSubmit as written. When the save succeeds, `onSuccess()` is called
   * inside the `try`; a parent that passed no callback makes that call throw,
   * which lands in the error branch after the success toast was shown, so the
   * dialog stays open.
   */
  function Submit(f: Form, saved: bool, hasOnSuccess: bool): (r: Submitted)
    ensures !ValidEmail(f.email) ==> r == Submitted(f, false, false, [InvalidEmail])
    ensures ValidEmail(f.email) ==> r.saveCalled && !r.form.isLoading && r.form.email == f.email
    ensures r.onSuccessCalled <==> ValidEmail(f.email) && saved && hasOnSuccess
    ensures r.onSuccessCalled ==> !r.form.open && r.toasts == [EmailSaved]
    ensures !r.onSuccessCalled ==> r.form.open == f.open
    ensures ValidEmail(f.email) && !saved ==> r.toasts == [SaveError]
    ensures EmailSaved in r.toasts <==> ValidEmail(f.email) && saved
  {
    if !ValidEmail(f.email) then Submitted(f, false, false, [InvalidEmail])
    else
      var done := Saving(f).(isLoading := false);
      if saved && hasOnSuccess then Submitted(done.(open := false), true, true, [EmailSaved])
      else if saved then Submitted(done, true, false, [EmailSaved, SaveError])
      else Submitted(done, true, false, [SaveError])
  }

  /** A saved email without a callback is reported as an error and the dialog stays open. */
  lemma MissingCallbackReportsError(f: Form)
    requires ValidEmail(f.email) && f.open
    ensures Submit(f, true, false).toasts == [EmailSaved, SaveError]
    ensures Submit(f, true, false).form.open
  {
  }

  /**
   * handleSubmit with the callback treated as optional: a successful save
   * always shows only the success toast and closes the dialog.
   */
  function SubmitWithOptionalCallback(f: Form, saved: bool, hasOnSuccess: bool): (r: Submitted)
    ensures ValidEmail(f.email) && saved ==> !r.form.open && r.toasts == [EmailSaved] && SaveError !in r.toasts
    ensures r.onSuccessCalled <==> ValidEmail(f.email) && saved && hasOnSuccess
    ensures !ValidEmail(f.email) ==> r == Submitted(f, false, false, [InvalidEmail])
    ensures ValidEmail(f.email) && !saved ==> r.toasts == [SaveError] && r.form.open == f.open
    ensures ValidEmail(f.email) ==> r.saveCalled && !r.form.isLoading
  {
    if !ValidEmail(f.email) then Submitted(f, false, false, [InvalidEmail])
    else
      var done := Saving(f).(isLoading := false);
      if saved then Submitted(done.(open := false), true, hasOnSuccess, [EmailSaved])
      else Submitted(done, true, false, [SaveError])
  }

  /** Where the parent passes the callback, both versions behave the same. */
  lemma SubmitAgreesWithCallback(f: Form, saved: bool)
    ensures Submit(f, saved, true) == SubmitWithOptionalCallback(f, saved, true)
  {
  }
}

=== FILE: pro_dashboard.dfy ===
/**
 * The professional dashboard: the search and selection filters over its two
 * fixed question lists, the answer-visibility toggle, and the simulated help
 * request, which either opens the email gate or marks the question as loading
 * until a timer delivers a canned answer.
 */
module ProDashboard {
  import opened Wrappers
  import opened Api
  import Strings
  import Seqs
  import GmailCapture

  const SampleQuestions: seq<Question> := [
    Question("q1", Technical, Medium, "Explain the difference between var, let, and const in JavaScript.",
             ["javascript", "fundamentals", "variables"], None),
    Question("q2", Hr, Medium, "Tell me about a time when you had to work with a difficult team member.",
             ["teamwork", "conflict-resolution", "communication"], None),
    Question("q3", Technical, Hard, "How would you implement a debounce function in React?",
             ["react", "performance", "hooks"], None)
  ]

  const HrQuestions: seq<Question> := [
    Question("hr1", Hr, Easy, "Why do you want to work for our company?",
             ["motivation", "research", "company-fit"], None),
    Question("hr2", Hr, Medium, "Describe a challenging project you've worked on.",
             ["problem-solving", "projects", "achievements"], None),
    Question("hr3", Hr, Easy, "Where do you see yourself in 5 years?",
             ["career-goals", "ambition", "planning"], None)
  ]

  /** The answer the simulated help request delivers for every question. */
  const CannedAnswer: string :=
    "This is a comprehensive answer that covers the key points you should mention in your response. "
    + "Focus on specific examples from your experience and demonstrate your problem-solving approach."

  /** The selection meaning "no restriction" in both drop-downs. */
  const All: string := "all"

  // ---------------------------------------------------------------------------
  // Filters

  /** The search: the lower-cased query occurs in the lower-cased text or in some lower-cased tag. */
  predicate MatchesSearch(q: Question, query: string) {
    || Strings.Contains(Strings.Lower(q.text), Strings.Lower(query))
    || exists i :: 0 <= i < |q.tags| && Strings.Contains(Strings.Lower(q.tags[i]), Strings.Lower(query))
  }

  /** A drop-down selection passes a field value when it is "all" or that very value. */
  predicate MatchesSelection(selection: string, value: string) {
    selection == All || value == selection
  }

  predicate Matches(q: Question, query: string, difficulty: string, category: string) {
    && MatchesSearch(q, query)
    && MatchesSelection(difficulty, DifficultyName(q.difficulty))
    && MatchesSelection(category, CategoryName(q.category))
  }

  /** filteredQuestions: the questions passing search and both selections, in their original order. */
  function FilteredQuestions(qs: seq<Question>, query: string, difficulty: string, category: string): (r: seq<Question>)
    ensures Seqs.IsSubsequence(r, qs)
    ensures forall q :: q in r <==> q in qs && Matches(q, query, difficulty, category)
    ensures forall q :: multiset(r)[q] == if Matches(q, query, difficulty, category) then multiset(qs)[q] else 0
  {
    Seqs.FilterCounts(qs, q => Matches(q, query, difficulty, category));
    Seqs.Filter(qs, q => Matches(q, query, difficulty, category))
  }

  /** filteredHRQuestions: the questions passing the search alone, in their original order. */
  function FilteredHRQuestions(qs: seq<Question>, query: string): (r: seq<Question>)
    ensures Seqs.IsSubsequence(r, qs)
    ensures forall q :: q in r <==> q in qs && MatchesSearch(q, query)
    ensures forall q :: multiset(r)[q] == if MatchesSearch(q, query) then multiset(qs)[q] else 0
  {
    Seqs.FilterCounts(qs, q => MatchesSearch(q, query));
    Seqs.Filter(qs, q => MatchesSearch(q, query))
  }

  /** The empty string occurs in every string, so the empty query matches every question. */
  lemma {:induction false} EmptyQueryMatches(q: Question)
    ensures MatchesSearch(q, "")
  {
    Strings.ContainsAt(Strings.Lower(q.text), Strings.Lower(""), 0);
  }

  /** With an empty search and both selections at "all", nothing is filtered out. */
  lemma EmptyQueryKeepsAll(qs: seq<Question>)
    ensures FilteredQuestions(qs, "", All, All) == qs
    ensures FilteredHRQuestions(qs, "") == qs
  {
    forall i | 0 <= i < |qs| ensures MatchesSearch(qs[i], "") {
      EmptyQueryMatches(qs[i]);
    }
    Seqs.FilterKeepsAll(qs, q => Matches(q, "", All, All));
    Seqs.FilterKeepsAll(qs, q => MatchesSearch(q, ""));
  }

  /** The HR list ignores the drop-downs: it equals the question filter with both selections at "all". */
  lemma HrFilterIgnoresSelections(qs: seq<Question>, query: string)
    ensures FilteredHRQuestions(qs, query) == FilteredQuestions(qs, query, All, All)
  {
    Seqs.FilterCongruent(qs, q => MatchesSearch(q, query), q => Matches(q, query, All, All));
  }

  /** The search ignores case: queries with the same lower-casing match the same questions. */
  lemma SearchIgnoresCase(q: Question, query: string)
    ensures MatchesSearch(q, query) <==> MatchesSearch(q, Strings.Lower(query))
  {
    Strings.LowerIdempotent(query);
  }

  /** A query occurring in the lower-cased question text finds the question. */
  lemma SearchFindsText(q: Question, query: string, at: nat)
    requires at + |query| <= |q.text|
    requires Strings.Lower(q.text)[at..at + |query|] == Strings.Lower(query)
    ensures MatchesSearch(q, query)
  {
    Strings.ContainsAt(Strings.Lower(q.text), Strings.Lower(query), at);
  }

  /**
   * The category drop-down offers "behavioral", but the sample questions are
   * labelled "technical" or "hr": that selection always empties the list.
   */
  lemma BehavioralSelectsNoSample(query: string, difficulty: string)
    ensures FilteredQuestions(SampleQuestions, query, difficulty, "behavioral") == []
  {
  }

  // ---------------------------------------------------------------------------
  // Help and visibility

  datatype ProState = ProState(
    helpAnswers: map<string, string>,
    visible: set<string>,
    loading: set<string>,
    showGate: bool)

  const Initial: ProState := ProState(map[], {}, {}, false)

  /**
   * handleHelpRequest: without a (truthy) session email only the gate opens;
   * otherwise the question starts loading, to be completed by the timer.
   */
  function HelpRequest(st: ProState, sessionEmail: Option<string>, questionId: string): (r: ProState)
    ensures sessionEmail.None? || sessionEmail.value == "" ==>
              r.showGate && r.loading == st.loading && r.helpAnswers == st.helpAnswers && r.visible == st.visible
    ensures sessionEmail.Some? && sessionEmail.value != "" ==>
              && questionId in r.loading
              && (forall k :: k != questionId ==> (k in r.loading <==> k in st.loading))
              && r.helpAnswers == st.helpAnswers && r.visible == st.visible && r.showGate == st.showGate
  {
    if sessionEmail.None? || sessionEmail.value == "" then st.(showGate := true)
    else st.(loading := st.loading + {questionId})
  }

  /** The timer's completion: the canned answer is recorded and shown and loading ends for that id only. */
  function HelpTimerFires(st: ProState, questionId: string): (r: ProState)
    ensures questionId in r.helpAnswers && r.helpAnswers[questionId] == CannedAnswer
    ensures questionId !in r.loading && questionId in r.visible
    ensures forall k :: k != questionId ==> (k in r.loading <==> k in st.loading)
    ensures forall k :: k != questionId ==> (k in r.visible <==> k in st.visible)
    ensures forall k :: k != questionId && k in st.helpAnswers ==> k in r.helpAnswers && r.helpAnswers[k] == st.helpAnswers[k]
    ensures r.helpAnswers.Keys == st.helpAnswers.Keys + {questionId}
    ensures r.showGate == st.showGate
  {
    ProState(st.helpAnswers[questionId := CannedAnswer], st.visible + {questionId}, st.loading - {questionId}, st.showGate)
  }

  /** A completed request leaves the loading set as it was before the request (for an id not already loading). */
  lemma RequestThenTimerRestoresLoading(st: ProState, email: string, questionId: string)
    requires email != "" && questionId !in st.loading
    ensures var r := HelpTimerFires(HelpRequest(st, Some(email), questionId), questionId);
            r.loading == st.loading && questionId in r.visible && r.helpAnswers[questionId] == CannedAnswer
  {
  }

  datatype GateResult = GateResult(state: ProState, toasts: seq<GmailCapture.Toast>)

  /**
   * Submitting the gate dialog on this page, which passes no success callback:
   * a saved email still reports the save error and the dialog never closes.
   */
  function SubmitGate(st: ProState, email: string, saved: bool): (r: GateResult)
    ensures r.state == st
    ensures GmailCapture.ValidEmail(email) && saved ==>
              r.toasts == [GmailCapture.EmailSaved, GmailCapture.SaveError]
    ensures !GmailCapture.ValidEmail(email) ==> r.toasts == [GmailCapture.InvalidEmail]
  {
    var submitted := GmailCapture.Submit(GmailCapture.Form(email, false, st.showGate), saved, false);
    GateResult(st.(showGate := submitted.form.open), submitted.toasts)
  }

  /** toggleAnswerVisibility flips exactly one id. */
  function ToggleAnswerVisibility(st: ProState, questionId: string): (r: ProState)
    ensures questionId in r.visible <==> questionId !in st.visible
    ensures forall k :: k != questionId ==> (k in r.visible <==> k in st.visible)
    ensures r.(visible := st.visible) == st
  {
    st.(visible := Seqs.Toggle(st.visible, questionId))
  }

  lemma ToggleAnswerVisibilityTwice(st: ProState, questionId: string)
    ensures ToggleAnswerVisibility(ToggleAnswerVisibility(st, questionId), questionId) == st
  {
    Seqs.ToggleTwice(st.visible, questionId);
  }
}

=== FILE: question_card.dfy ===
/**
 * The question card's display rules: tag truncation, which panels and
 * buttons show, their labels, and the colour and icon tables.
 */
module QuestionCard {
  import opened Wrappers
  import opened Api
  import Seqs

  /** At most this many tags are shown. */
  const MaxShownTags: nat := 3

  /** `tags.slice(0, 3)`. */
  function ShownTags(tags: seq<string>): (r: seq<string>)
    ensures |r| <= MaxShownTags
    ensures r <= tags
    ensures |tags| <= MaxShownTags ==> r == tags
  {
    Seqs.Take(tags, MaxShownTags)
  }

  /** The N of "+N more": present exactly when tags were cut, and counting the ones cut. */
  function MoreTags(tags: seq<string>): (r: Option<nat>)
    ensures r.Some? <==> |tags| > MaxShownTags
    ensures r.Some? ==> 0 < r.value && |ShownTags(tags)| + r.value == |tags|
  {
    if |tags| > MaxShownTags then Some(|tags| - MaxShownTags) else None
  }

  /** The properties the dashboards pass; `helpAnswer` may be absent. */
  datatype Props = Props(
    question: Question,
    hasAnswerToggle: bool,
    isAnswerVisible: bool,
    isCompact: bool,
    helpAnswer: Option<string>,
    isLoadingHelp: bool)

  /** A truthy answer string: present and non-empty. */
  predicate HasAnswer(p: Props) {
    p.helpAnswer.Some? && p.helpAnswer.value != ""
  }

  /** Compact cards start collapsed; full cards start expanded. */
  function InitiallyExpanded(isCompact: bool): (expanded: bool)
    ensures expanded != isCompact
  {
    !isCompact
  }

  datatype View = View(
    tagRow: bool,
    shownTags: seq<string>,
    moreTags: Option<nat>,
    expandToggle: bool,
    body: bool,
    coachingPanel: bool,
    helpDisabled: bool,
    helpLabel: string,
    answerToggleLabel: Option<string>)

  /** What one card renders, given its props and its expanded flag. */
  function Render(p: Props, isExpanded: bool): (v: View)
    ensures v.tagRow <==> |p.question.tags| > 0
    ensures v.expandToggle <==> p.isCompact
    ensures v.body <==> isExpanded
    ensures v.coachingPanel <==> isExpanded && p.isAnswerVisible && HasAnswer(p)
    ensures v.helpDisabled <==> p.isLoadingHelp
    ensures v.helpLabel == (if p.isLoadingHelp then "Getting Help..." else "Get AI Help")
    ensures v.answerToggleLabel.Some? <==> isExpanded && HasAnswer(p) && p.hasAnswerToggle
    ensures v.answerToggleLabel.Some? ==>
              v.answerToggleLabel.value == (if p.isAnswerVisible then "Hide Answer" else "Show Answer")
  {
    View(
      |p.question.tags| > 0,
      ShownTags(p.question.tags),
      MoreTags(p.question.tags),
      p.isCompact,
      isExpanded,
      isExpanded && p.isAnswerVisible && HasAnswer(p),
      p.isLoadingHelp,
      if p.isLoadingHelp then "Getting Help..." else "Get AI Help",
      if isExpanded && HasAnswer(p) && p.hasAnswerToggle then
        Some(if p.isAnswerVisible then "Hide Answer" else "Show Answer")
      else None)
  }

  /** The help button's click: the question id, or nothing when the button is hidden or disabled. */
  function HelpClick(p: Props, isExpanded: bool): (r: Option<string>)
    ensures r.Some? <==> isExpanded && !p.isLoadingHelp
    ensures r.Some? ==> r.value == p.question.id
  {
    var v := Render(p, isExpanded);
    if v.body && !v.helpDisabled then Some(p.question.id) else None
  }

  const DefaultDifficultyColor: string := "text-dhraviq-muted border-dhraviq-muted/20 bg-dhraviq-muted/5"

  /** The difficulty badge classes, switching on the difficulty string. */
  function DifficultyColor(difficulty: string): (r: string)
    ensures difficulty != "easy" && difficulty != "medium" && difficulty != "hard" ==> r == DefaultDifficultyColor
  {
    if difficulty == "easy" then "text-dhraviq-mint border-dhraviq-mint/20 bg-dhraviq-mint/5"
    else if difficulty == "medium" then "text-dhraviq-aqua border-dhraviq-aqua/20 bg-dhraviq-aqua/5"
    else if difficulty == "hard" then "text-dhraviq-ion border-dhraviq-ion/20 bg-dhraviq-ion/5"
    else DefaultDifficultyColor
  }

  /** The three difficulties get three distinct classes, none of them the default. */
  lemma DifficultyColorsDistinct(a: Difficulty, b: Difficulty)
    ensures DifficultyColor(DifficultyName(a)) != DefaultDifficultyColor
    ensures a != b ==> DifficultyColor(DifficultyName(a)) != DifficultyColor(DifficultyName(b))
  {
  }

  datatype Icon = Brain | Target | Sparkles | HelpCircle

  function CategoryIcon(category: string): (r: Icon)
    ensures r == HelpCircle <==> category != "technical" && category != "hr" && category != "behavioral"
  {
    if category == "technical" then Brain
    else if category == "hr" then Target
    else if category == "behavioral" then Sparkles
    else HelpCircle
  }

  const DefaultCategoryColor: string := "text-dhraviq-muted bg-dhraviq-muted/10"

  function CategoryColor(category: string): (r: string)
    ensures category != "technical" && category != "hr" && category != "behavioral" ==> r == DefaultCategoryColor
  {
    if category == "technical" then "text-dhraviq-ion bg-dhraviq-ion/10"
    else if category == "hr" then "text-dhraviq-aqua bg-dhraviq-aqua/10"
    else if category == "behavioral" then "text-dhraviq-mint bg-dhraviq-mint/10"
    else DefaultCategoryColor
  }

  /** Every category gets its own icon and colour, never the fallback ones. */
  lemma CategoryStylesDistinct(a: Category, b: Category)
    ensures CategoryIcon(CategoryName(a)) != HelpCircle
    ensures CategoryColor(CategoryName(a)) != DefaultCategoryColor
    ensures a != b ==> CategoryIcon(CategoryName(a)) != CategoryIcon(CategoryName(b))
    ensures a != b ==> CategoryColor(CategoryName(a)) != CategoryColor(CategoryName(b))
  {
  }
}

=== FILE: score.dfy ===
/**
 * The score gauge: the label and colour bands of a 0-100 score and the
 * counter that animates the displayed number up to the score. Scores are
 * exact reals; each interval tick is one application of the step function.
 */
module Score {

  /** The four bands, best first. */
  datatype Band = Excellent | Good | Fair | NeedsWork

  /** The band thresholds shared by the label and the colour. */
  function BandOf(score: real): (b: Band)
    ensures b == Excellent <==> score >= 80.0
    ensures b == Good <==> 60.0 <= score < 80.0
    ensures b == Fair <==> 40.0 <= score < 60.0
    ensures b == NeedsWork <==> score < 40.0
  {
    if score >= 80.0 then Excellent
    else if score >= 60.0 then Good
    else if score >= 40.0 then Fair
    else NeedsWork
  }

  /** getScoreLabel: the label of the score's band. */
  function ScoreLabel(score: real): (r: string)
    ensures r == BandLabel(BandOf(score))
  {
    if score >= 80.0 then "Excellent"
    else if score >= 60.0 then "Good"
    else if score >= 40.0 then "Fair"
    else "Needs Work"
  }

  /** getScoreColor: the colour of the same band, so label and colour always agree. */
  function ScoreColor(score: real): (r: string)
    ensures r == BandColor(BandOf(score))
  {
    if score >= 80.0 then "var(--dhraviq-mint)"
    else if score >= 60.0 then "var(--dhraviq-aqua)"
    else if score >= 40.0 then "var(--dhraviq-ion)"
    else "var(--dhraviq-error)"
  }

  function BandLabel(b: Band): string {
    match b
    case Excellent => "Excellent"
    case Good => "Good"
    case Fair => "Fair"
    case NeedsWork => "Needs Work"
  }

  function BandColor(b: Band): string {
    match b
    case Excellent => "var(--dhraviq-mint)"
    case Good => "var(--dhraviq-aqua)"
    case Fair => "var(--dhraviq-ion)"
    case NeedsWork => "var(--dhraviq-error)"
  }

  /** Higher is better: 3 for Excellent down to 0 for Needs Work. */
  function Rank(b: Band): nat {
    match b
    case Excellent => 3
    case Good => 2
    case Fair => 1
    case NeedsWork => 0
  }

  /** Distinct bands have distinct labels and distinct colours: the label determines the colour. */
  lemma BandsDistinguishable(a: real, b: real)
    ensures ScoreLabel(a) == ScoreLabel(b) <==> BandOf(a) == BandOf(b)
    ensures ScoreColor(a) == ScoreColor(b) <==> BandOf(a) == BandOf(b)
  {
  }

  /** A higher score never gets a worse band. */
  lemma BandMonotone(a: real, b: real)
    requires a <= b
    ensures Rank(BandOf(a)) <= Rank(BandOf(b))
  {
  }

  // ---------------------------------------------------------------------------
  // The animated counter

  /** The counter reaches the score in this many ticks. */
  const Ticks: nat := 50

  /** The amount one tick adds: a fiftieth of the score. */
  function Increment(score: real): (r: real)
    ensures (Ticks as real) * r == score
  {
    score / Ticks as real
  }

  /** One tick of the counter: at or past the score it snaps to the score, else it climbs, capped at the score. */
  function AnimationStep(prev: real, score: real): (r: real)
    ensures r <= score
    ensures prev >= score ==> r == score
    ensures prev < score && score >= 0.0 ==> prev <= r
    ensures prev < score && prev + Increment(score) <= score ==> r == prev + Increment(score)
    ensures prev < score && prev + Increment(score) > score ==> r == score
  {
    if prev >= score then score
    else if prev + Increment(score) <= score then prev + Increment(score)
    else score
  }

  /** The displayed value after n ticks, starting from 0. */
  function Animate(score: real, n: nat): real {
    if n == 0 then 0.0 else AnimationStep(Animate(score, n - 1), score)
  }

  /** n increments added up. */
  function Multiple(n: nat, inc: real): real {
    if n == 0 then 0.0 else Multiple(n - 1, inc) + inc
  }

  /** Adding up n increments is multiplying by n. */
  lemma {:induction false} MultipleIsProduct(n: nat, inc: real)
    ensures Multiple(n, inc) == (n as real) * inc
  {
    if n > 0 {
      MultipleIsProduct(n - 1, inc);
      AddOneMore((n - 1) as real, inc);
      assert n as real == (n - 1) as real + 1.0;
    }
  }

  lemma AddOneMore(a: real, inc: real)
    ensures (a + 1.0) * inc == a * inc + inc
  {
  }

  /** Fewer positive increments add up to less. */
  lemma {:induction false} MultipleMonotone(k: nat, n: nat, inc: real)
    requires k < n && inc > 0.0
    ensures Multiple(k, inc) < Multiple(n, inc)
  {
    if k < n - 1 {
      MultipleMonotone(k, n - 1, inc);
    }
  }

  /** For a positive score the counter climbs by one increment per tick: after n <= 50 ticks it shows n of them. */
  lemma {:induction false} AnimateLinear(score: real, n: nat)
    requires score > 0.0 && n <= Ticks
    ensures Animate(score, n) == Multiple(n, Increment(score))
  {
    if n > 0 {
      AnimateLinear(score, n - 1);
      var inc := Increment(score);
      MultipleIsProduct(Ticks, inc);
      assert Multiple(Ticks, inc) == score;
      if n < Ticks {
        MultipleMonotone(n, Ticks, inc);
      }
      MultipleMonotone(n - 1, Ticks, inc);
      assert Animate(score, n) == AnimationStep(Animate(score, n - 1), score);
    }
  }

  /** Fifty ticks reach the score, and from then on the value stays there. */
  lemma {:induction false} AnimateSettles(score: real, n: nat)
    requires score > 0.0 && n >= Ticks
    ensures Animate(score, n) == score
  {
    if n == Ticks {
      AnimateLinear(score, Ticks);
      MultipleIsProduct(Ticks, Increment(score));
    } else {
      AnimateSettles(score, n - 1);
    }
  }

  /** A score of zero or below is shown from the first tick on. */
  lemma NonPositiveShownAtOnce(score: real, n: nat)
    requires score <= 0.0 && n >= 1
    ensures Animate(score, n) == score
  {
    if n > 1 {
      NonPositiveShownAtOnce(score, n - 1);
    }
  }

  /** The counter never overshoots the score after any tick. */
  lemma AnimateBounded(score: real, n: nat)
    requires n >= 1
    ensures Animate(score, n) <= score
  {
  }

  /** The number displayed: the counter when animated, the score at once when not. */
  function DisplayScore(score: real, animated: bool, ticks: nat): (r: real)
    ensures !animated ==> r == score
    ensures animated && score > 0.0 && ticks <= Ticks ==> r == Multiple(ticks, Increment(score))
    ensures animated && ticks >= 1 ==> r <= score
  {
    if animated then
      if ticks >= 1 then
        AnimateBounded(score, ticks);
        if score > 0.0 && ticks <= Ticks then
          AnimateLinear(score, ticks);
          Animate(score, ticks)
        else Animate(score, ticks)
      else Animate(score, ticks)
    else score
  }

  /** `Math.round`: the nearest integer, halves rounded up. */
  function Round(x: real): (r: int)
    ensures (r as real) - 0.5 <= x < (r as real) + 0.5
  {
    (x + 0.5).Floor
  }

  /** Rounding keeps order: a smaller value never rounds to a larger integer. */
  lemma RoundMonotone(x: real, y: real)
    requires x <= y
    ensures Round(x) <= Round(y)
  {
  }

  /** The number the gauge prints: the displayed value rounded with `Math.round`. */
  function ShownNumber(score: real, animated: bool, ticks: nat): (r: int)
    ensures !animated ==> r == Round(score)
    ensures animated && ticks >= 1 ==> r <= Round(score)
  {
    var d := DisplayScore(score, animated, ticks);
    if animated && ticks >= 1 then
      RoundMonotone(d, score);
      Round(d)
    else Round(d)
  }

  /** Once the counter has settled the gauge prints the rounded score, as it does at once without animation. */
  lemma SettledShowsRoundedScore(score: real, ticks: nat)
    requires score > 0.0 && ticks >= Ticks
    ensures ShownNumber(score, true, ticks) == ShownNumber(score, false, ticks) == Round(score)
  {
    AnimateSettles(score, ticks);
  }
}

=== FILE: seqs.dfy ===
/** Sequence and set helpers: `Array.prototype.filter`, `slice(0, n)` and the Set toggle. */
module Seqs {

  function Min(a: nat, b: nat): nat {
    if a <= b then a else b
  }

  /**
   * a is an order-preserving subsequence of b (greedy matching, which finds an
   * embedding whenever one exists).
   */
  predicate IsSubsequence<T(==)>(a: seq<T>, b: seq<T>)
    decreases |b|
  {
    if |a| == 0 then true
    else if |b| == 0 then false
    else if a[0] == b[0] then IsSubsequence(a[1..], b[1..])
    else IsSubsequence(a, b[1..])
  }

  /** `s.filter(p)`. */
  function Filter<T(==,!new)>(s: seq<T>, p: T -> bool): (r: seq<T>)
    ensures |r| <= |s|
    ensures forall x :: x in r <==> x in s && p(x)
    ensures IsSubsequence(r, s)
  {
    if |s| == 0 then []
    else
      var rest := Filter(s[1..], p);
      if p(s[0]) then
        assert ([s[0]] + rest)[1..] == rest;
        [s[0]] + rest
      else
        assert |rest| > 0 ==> rest[0] != s[0] by {
          if |rest| > 0 {
            assert rest[0] in rest;
          }
        }
        rest
  }

  /** Filtering keeps every copy of a kept element and no copy of a dropped one. */
  lemma {:induction false} FilterCounts<T(!new)>(s: seq<T>, p: T -> bool)
    ensures forall x :: multiset(Filter(s, p))[x] == if p(x) then multiset(s)[x] else 0
    decreases |s|
  {
    if |s| > 0 {
      FilterCounts(s[1..], p);
      assert s == [s[0]] + s[1..];
    }
  }

  /** Filtering depends only on the predicate's values at the list's elements. */
  lemma {:induction false} FilterCongruent<T(!new)>(s: seq<T>, p: T -> bool, q: T -> bool)
    requires forall i :: 0 <= i < |s| ==> p(s[i]) == q(s[i])
    ensures Filter(s, p) == Filter(s, q)
    decreases |s|
  {
    if |s| > 0 {
      assert forall i :: 0 <= i < |s| - 1 ==> s[1..][i] == s[i + 1];
      FilterCongruent(s[1..], p, q);
    }
  }

  /** A predicate every element satisfies keeps the whole list. */
  lemma {:induction false} FilterKeepsAll<T(!new)>(s: seq<T>, p: T -> bool)
    requires forall i :: 0 <= i < |s| ==> p(s[i])
    ensures Filter(s, p) == s
    decreases |s|
  {
    if |s| > 0 {
      assert forall i :: 0 <= i < |s| - 1 ==> s[1..][i] == s[i + 1];
      FilterKeepsAll(s[1..], p);
      assert [s[0]] + s[1..] == s;
    }
  }

  /** Filtering a concatenation filters each part. */
  lemma {:induction false} FilterAppend<T(!new)>(a: seq<T>, b: seq<T>, p: T -> bool)
    ensures Filter(a + b, p) == Filter(a, p) + Filter(b, p)
    decreases |a|
  {
    if |a| == 0 {
      assert a + b == b;
    } else {
      assert (a + b)[1..] == a[1..] + b;
      FilterAppend(a[1..], b, p);
    }
  }

  /** `s.slice(0, n)`. */
  function Take<T>(s: seq<T>, n: nat): (r: seq<T>)
    ensures |r| == Min(n, |s|)
    ensures r <= s
  {
    s[..Min(n, |s|)]
  }

  /** A prefix is a subsequence. */
  lemma {:induction false} PrefixIsSubsequence<T>(a: seq<T>, b: seq<T>)
    requires a <= b
    ensures IsSubsequence(a, b)
    decreases |b|
  {
    if |a| > 0 {
      assert a[0] == b[0];
      PrefixIsSubsequence(a[1..], b[1..]);
    }
  }

  /** A subsequence of the tail is a subsequence of the whole. */
  lemma {:induction false} SubsequenceOfTail<T>(a: seq<T>, c: seq<T>)
    requires |c| > 0 && IsSubsequence(a, c[1..])
    ensures IsSubsequence(a, c)
    decreases |c|, 0
  {
    if |a| > 0 && a[0] == c[0] {
      SubsequenceDropHead(a, c[1..]);
    }
  }

  /** Dropping the first element keeps a subsequence. */
  lemma {:induction false} SubsequenceDropHead<T>(a: seq<T>, c: seq<T>)
    requires |a| > 0 && IsSubsequence(a, c)
    ensures IsSubsequence(a[1..], c)
    decreases |c|, 1
  {
    if a[0] == c[0] {
      SubsequenceOfTail(a[1..], c);
    } else {
      SubsequenceDropHead(a, c[1..]);
      SubsequenceOfTail(a[1..], c);
    }
  }

  /** Subsequences compose. */
  lemma {:induction false} SubsequenceTransitive<T>(a: seq<T>, b: seq<T>, c: seq<T>)
    requires IsSubsequence(a, b) && IsSubsequence(b, c)
    ensures IsSubsequence(a, c)
    decreases |c|
  {
    if |a| == 0 {
    } else if |c| == 0 {
    } else if b[0] == c[0] {
      if a[0] == b[0] {
        SubsequenceTransitive(a[1..], b[1..], c[1..]);
      } else {
        SubsequenceTransitive(a, b[1..], c[1..]);
        SubsequenceOfTail(a, c);
      }
    } else {
      SubsequenceTransitive(a, b, c[1..]);
      SubsequenceOfTail(a, c);
    }
  }

  /** Adds x when absent, removes it when present (the `has`/`delete`/`add` toggle). */
  function Toggle<T(!new)>(s: set<T>, x: T): (r: set<T>)
    ensures x in r <==> x !in s
    ensures forall y :: y != x ==> (y in r <==> y in s)
  {
    if x in s then s - {x} else s + {x}
  }

  lemma ToggleTwice<T(!new)>(s: set<T>, x: T)
    ensures Toggle(Toggle(s, x), x) == s
  {
  }
}

=== FILE: session_manager.dfy ===
/**
 * The session hook: the published current session and a loading flag, with
 * load-last, create and clear transitions. Storage results, the clock and the
 * random digits are parameters.
 */
module SessionManager {
  import opened Wrappers
  import opened Api
  import Strings
  import Seqs
  import Storage

  /** The session as published to the views. */
  datatype SessionData = SessionData(id: string, resumeText: string, analysis: Phase1Response)

  datatype SessionState = SessionState(session: Option<SessionData>, isLoading: bool)

  /** Before the first load has finished, nothing is published and the hook is loading. */
  const Initial: SessionState := SessionState(None, true)

  function FromRecord(r: Storage.SessionRecord): SessionData {
    SessionData(r.id, r.resumeText, r.analysis)
  }

  /** The outcome of the store read: the last session (or none), or a storage failure. */
  datatype LoadOutcome = Loaded(last: Option<Storage.SessionRecord>) | LoadFailed

  /** Entering a load raises the flag and keeps the published session. */
  function BeginLoad(st: SessionState): (r: SessionState)
    ensures r.isLoading && r.session == st.session
  {
    st.(isLoading := true)
  }

  /**
   * Finishing a load publishes what was read (possibly nothing) on success,
   * keeps the session on failure, and clears the flag on every outcome.
   */
  function FinishLoad(st: SessionState, outcome: LoadOutcome): (r: SessionState)
    ensures !r.isLoading
    ensures outcome.LoadFailed? ==> r.session == st.session
    ensures outcome.Loaded? && outcome.last.None? ==> r.session.None?
    ensures outcome.Loaded? && outcome.last.Some? ==> r.session == Some(FromRecord(outcome.last.value))
  {
    match outcome
    case Loaded(last) =>
      SessionState(if last.Some? then Some(FromRecord(last.value)) else None, false)
    case LoadFailed =>
      st.(isLoading := false)
  }

  /**
   * The whole load against a store: when the store is available, the
   * published session is the store's latest one (none on an empty store).
   */
  method LoadLastSession(st: SessionState, store: Storage.Store, available: bool) returns (r: SessionState)
    requires Storage.WellKeyed(store)
    ensures !r.isLoading
    ensures !available ==> r.session == st.session
    ensures available ==> (r.session.None? <==> |store.sessions| == 0)
    ensures available && r.session.Some? ==>
              && r.session.value.id in store.sessions
              && Storage.IsLatest(store.sessions, store.sessions[r.session.value.id])
              && FromRecord(store.sessions[r.session.value.id]) == r.session.value
  {
    var loading := BeginLoad(st);
    if available {
      var last := Storage.GetLastSession(store);
      r := FinishLoad(loading, Loaded(last));
    } else {
      r := FinishLoad(loading, LoadFailed);
    }
  }

  /** Session ids never contain a dash, so they keep answer keys injective. */
  predicate DashFree(s: string) {
    '-' !in s
  }

  /** `substr(2, 9)` keeps at most nine random digits. */
  const KeptDigits: nat := 9

  /**
   * `"session_" + Date.now() + "_" + Math.random().toString(36).substr(2, 9)`:
   * `randomDigits` are the base-36 digits after the leading "0.", of which at
   * most nine are kept.
   */
  function NewSessionId(now: nat, randomDigits: string): (id: string)
    requires forall i :: 0 <= i < |randomDigits| ==> Strings.IsBase36(randomDigits[i])
    ensures "session_" <= id
    ensures DashFree(id)
    ensures exists digits, suffix ::
              && id == "session_" + digits + "_" + suffix
              && (forall i :: 0 <= i < |digits| ==> Strings.IsDigit(digits[i]))
              && digits == Strings.Decimal(now)
              && Strings.ParseDecimal(digits) == now
              && |suffix| == Seqs.Min(KeptDigits, |randomDigits|)
              && suffix == randomDigits[..|suffix|]
  {
    var digits := Strings.Decimal(now);
    var suffix := randomDigits[..Seqs.Min(KeptDigits, |randomDigits|)];
    var id := "session_" + digits + "_" + suffix;
    assert forall i :: 0 <= i < |id| ==> id[i] != '-' by {
      forall i | 0 <= i < |id| ensures id[i] != '-' {
        if i < 8 {
          assert id[i] == "session_"[i];
        } else if i < 8 + |digits| {
          assert id[i] == digits[i - 8] && Strings.IsDigit(digits[i - 8]);
        } else if i == 8 + |digits| {
          assert id[i] == '_';
        } else {
          var j := i - 9 - |digits|;
          assert id[i] == suffix[j] == randomDigits[j];
          assert Strings.IsBase36(randomDigits[j]);
        }
      }
    }
    assert "session_" <= id;
    id
  }

  /** The result of createSession: the new state and store, and the created session or the failure. */
  datatype Created = Created(state: SessionState, store: Storage.Store, result: Option<SessionData>)

  /**
   * Persists first and publishes only after the write succeeded; a failed
   * write is rethrown (result None) with the published session and the store
   * unchanged.
   */
  function CreateSession(
    st: SessionState, store: Storage.Store, now: nat, randomDigits: string,
    resumeText: string, analysis: Phase1Response, persisted: bool): (r: Created)
    requires forall i :: 0 <= i < |randomDigits| ==> Strings.IsBase36(randomDigits[i])
    ensures r.state.isLoading == st.isLoading
    ensures !persisted ==> r.result.None? && r.state == st && r.store == store
    ensures persisted ==> r.result.Some? && r.state.session == r.result
    ensures r.result.Some? ==>
              var s := r.result.value;
              && s.resumeText == resumeText && s.analysis == analysis
              && "session_" <= s.id && DashFree(s.id)
              && s.id in r.store.sessions
              && r.store.sessions[s.id].lastAccessed == now
              && FromRecord(r.store.sessions[s.id]) == s
    ensures r.result.Some? ==> r.result.value.id == NewSessionId(now, randomDigits)
    ensures persisted ==> r.store == Storage.SaveSession(store, NewSessionId(now, randomDigits), resumeText, analysis, now)
    ensures persisted ==>
              && r.store.sessions.Keys == store.sessions.Keys + {NewSessionId(now, randomDigits)}
              && (forall k :: k in store.sessions && k != NewSessionId(now, randomDigits) ==> r.store.sessions[k] == store.sessions[k])
              && r.store.answers == store.answers && r.store.companies == store.companies && r.store.hrBank == store.hrBank
  {
    var id := NewSessionId(now, randomDigits);
    if persisted then
      var s := SessionData(id, resumeText, analysis);
      Created(st.(session := Some(s)), Storage.SaveSession(store, id, resumeText, analysis, now), Some(s))
    else
      Created(st, store, None)
  }

  /** A created session becomes the store's latest when it is the newest write. */
  lemma CreatedIsLatest(
    st: SessionState, store: Storage.Store, now: nat, randomDigits: string,
    resumeText: string, analysis: Phase1Response)
    requires forall i :: 0 <= i < |randomDigits| ==> Strings.IsBase36(randomDigits[i])
    requires forall k :: k in store.sessions ==> store.sessions[k].lastAccessed < now
    ensures var c := CreateSession(st, store, now, randomDigits, resumeText, analysis, true);
            Storage.IsLatest(c.store.sessions, c.store.sessions[c.result.value.id])
  {
  }

  /** Clearing unpublishes the session; it takes no store, so nothing persisted changes. */
  function ClearSession(st: SessionState): (r: SessionState)
    ensures r.session.None? && r.isLoading == st.isLoading
  {
    st.(session := None)
  }
}

=== FILE: storage.dfy ===
/**
 * The local store: four collections keyed by id (sessions, cached coaching
 * answers, company records and the HR question bank), modelled as finite
 * maps. The clock is a parameter (`now`, in milliseconds).
 */
module Storage {
  import opened Wrappers
  import opened Api
  import Strings

  datatype SessionRecord = SessionRecord(
    id: string,
    resumeText: string,
    analysis: Phase1Response,
    createdAt: int,
    lastAccessed: int)

  datatype AnswerRecord = AnswerRecord(
    id: string,
    questionId: string,
    sessionId: string,
    answer: string,
    createdAt: int)

  /** A stored company: the fields come from an untyped caller object, so each may be absent. */
  datatype CompanyRecord = CompanyRecord(
    id: string,
    name: Option<string>,
    logo: Option<string>,
    questions: Option<seq<Question>>,
    updatedAt: int)

  /** The caller-supplied object spread into a company record. */
  datatype CompanyData = CompanyData(
    id: Option<string>,
    name: Option<string>,
    logo: Option<string>,
    questions: Option<seq<Question>>,
    updatedAt: Option<int>)

  datatype Store = Store(
    sessions: map<string, SessionRecord>,
    answers: map<string, AnswerRecord>,
    companies: map<string, CompanyRecord>,
    hrBank: map<string, Question>)

  const Empty: Store := Store(map[], map[], map[], map[])

  const Day: int := 24 * 60 * 60 * 1000

  /** Default age limit of ClearOldSessions: 30 days, 2,592,000,000 ms. */
  const DefaultMaxAge: int := 30 * Day

  /** Every collection uses the record's `id` as its key path. */
  predicate WellKeyed(st: Store) {
    && (forall k :: k in st.sessions ==> st.sessions[k].id == k)
    && (forall k :: k in st.answers ==> st.answers[k].id == k)
    && (forall k :: k in st.companies ==> st.companies[k].id == k)
    && (forall k :: k in st.hrBank ==> st.hrBank[k].id == k)
  }

  // ---------------------------------------------------------------- sessions

  /** Upserts a session; both timestamps are set to `now`, also when the id already exists. */
  function SaveSession(st: Store, id: string, resumeText: string, analysis: Phase1Response, now: int): (r: Store)
    ensures r.sessions.Keys == st.sessions.Keys + {id}
    ensures r.sessions[id].resumeText == resumeText && r.sessions[id].analysis == analysis
    ensures r.sessions[id].createdAt == now && r.sessions[id].lastAccessed == now
    ensures forall k :: k in st.sessions && k != id ==> r.sessions[k] == st.sessions[k]
    ensures r.answers == st.answers && r.companies == st.companies && r.hrBank == st.hrBank
    ensures WellKeyed(st) ==> WellKeyed(r)
  {
    st.(sessions := st.sessions[id := SessionRecord(id, resumeText, analysis, now, now)])
  }

  /**
   * The order of the `lastAccessed` index walked backwards: later access first,
   * equal timestamps broken by the greater primary key.
   */
  predicate AccessedAfter(a: SessionRecord, b: SessionRecord) {
    a.lastAccessed > b.lastAccessed
    || (a.lastAccessed == b.lastAccessed && Strings.Less(b.id, a.id))
  }

  /** r is the stored session that comes first in that order. */
  predicate IsLatest(sessions: map<string, SessionRecord>, r: SessionRecord) {
    && r.id in sessions
    && sessions[r.id] == r
    && forall k :: k in sessions && k != r.id ==> AccessedAfter(r, sessions[k])
  }

  lemma AccessedAfterTransitive(a: SessionRecord, b: SessionRecord, c: SessionRecord)
    requires AccessedAfter(a, b) && AccessedAfter(b, c)
    ensures AccessedAfter(a, c)
  {
    if a.lastAccessed == b.lastAccessed == c.lastAccessed {
      Strings.LessTransitive(c.id, b.id, a.id);
    }
  }

  lemma AccessedAfterTotal(a: SessionRecord, b: SessionRecord)
    requires a.id != b.id && !AccessedAfter(a, b)
    ensures AccessedAfter(b, a)
  {
    Strings.LessTotal(a.id, b.id);
  }

  /** At most one session is the latest, so "the last session" is well defined. */
  lemma LatestUnique(sessions: map<string, SessionRecord>, a: SessionRecord, b: SessionRecord)
    requires IsLatest(sessions, a) && IsLatest(sessions, b)
    ensures a == b
  {
    if a.id != b.id {
      assert AccessedAfter(a, b) && AccessedAfter(b, a);
      if a.lastAccessed == b.lastAccessed {
        Strings.LessAsymmetric(a.id, b.id);
      }
    }
  }

  /** The record the backwards cursor over `lastAccessed` yields first, or None on an empty store. */
  method GetLastSession(st: Store) returns (r: Option<SessionRecord>)
    requires WellKeyed(st)
    ensures r.None? <==> |st.sessions| == 0
    ensures r.Some? ==> IsLatest(st.sessions, r.value)
  {
    var remaining := st.sessions.Keys;
    r := None;
    while remaining != {}
      invariant remaining <= st.sessions.Keys
      invariant r.None? <==> remaining == st.sessions.Keys
      invariant r.Some? ==> r.value.id in st.sessions && st.sessions[r.value.id] == r.value
      invariant r.Some? ==> r.value.id !in remaining
      invariant r.Some? ==> forall k :: k in st.sessions && k !in remaining && k != r.value.id
                                       ==> AccessedAfter(r.value, st.sessions[k])
      decreases remaining
    {
      var k :| k in remaining;
      var s := st.sessions[k];
      if r.None? {
        r := Some(s);
      } else if AccessedAfter(s, r.value) {
        forall j | j in st.sessions && j !in remaining - {k} && j != k
          ensures AccessedAfter(s, st.sessions[j])
        {
          if j != r.value.id {
            AccessedAfterTransitive(s, r.value, st.sessions[j]);
          }
        }
        r := Some(s);
      } else {
        AccessedAfterTotal(s, r.value);
      }
      remaining := remaining - {k};
    }
    assert st.sessions.Keys == {} ==> |st.sessions| == 0;
  }

  /**
   * Age-based eviction: exactly the sessions last accessed strictly before
   * `now - maxAge` are deleted.
   */
  function ClearOldSessions(st: Store, now: int, maxAge: int): (r: Store)
    ensures forall k :: k in r.sessions <==> k in st.sessions && !(st.sessions[k].lastAccessed < now - maxAge)
    ensures forall k :: k in r.sessions ==> r.sessions[k] == st.sessions[k]
    ensures r.answers == st.answers && r.companies == st.companies && r.hrBank == st.hrBank
    ensures WellKeyed(st) ==> WellKeyed(r)
  {
    var cutoff := now - maxAge;
    st.(sessions := map k | k in st.sessions && st.sessions[k].lastAccessed >= cutoff :: st.sessions[k])
  }

  /**
   * Saving a then b makes b the latest; saving a again later refreshes its
   * timestamp and makes it the latest again.
   */
  lemma ResaveBecomesLatest(st: Store, a: string, b: string, text: string, analysis: Phase1Response, t1: int, t2: int, t3: int)
    requires a != b && t1 < t2 < t3
    requires forall k :: k in st.sessions ==> st.sessions[k].lastAccessed < t1
    ensures var st2 := SaveSession(SaveSession(st, a, text, analysis, t1), b, text, analysis, t2);
            && IsLatest(st2.sessions, st2.sessions[b])
            && var st3 := SaveSession(st2, a, text, analysis, t3);
               IsLatest(st3.sessions, st3.sessions[a])
  {
  }

  /** If the latest session survives eviction, it is still the latest afterwards. */
  lemma ClearKeepsLatest(st: Store, now: int, maxAge: int, r: SessionRecord)
    requires IsLatest(st.sessions, r) && r.lastAccessed >= now - maxAge
    ensures IsLatest(ClearOldSessions(st, now, maxAge).sessions, r)
  {
  }

  /** If the latest session is evicted, every session is. */
  lemma {:induction false} ClearEvictsAllWhenLatestIsOld(st: Store, now: int, maxAge: int, r: SessionRecord)
    requires IsLatest(st.sessions, r) && r.lastAccessed < now - maxAge
    ensures ClearOldSessions(st, now, maxAge).sessions == map[]
  {
    var cleared := ClearOldSessions(st, now, maxAge).sessions;
    forall k | k in st.sessions ensures k !in cleared {
      if k != r.id {
        assert AccessedAfter(r, st.sessions[k]);
      }
    }
    assert cleared.Keys == {};
  }

  /** With the default limit a session 31 days old is evicted and one 29 days old is kept. */
  lemma DefaultAgeExample(st: Store, now: int, stale: string, recent: string)
    requires stale in st.sessions && st.sessions[stale].lastAccessed == now - 31 * Day
    requires recent in st.sessions && st.sessions[recent].lastAccessed == now - 29 * Day
    ensures DefaultMaxAge == 2592000000
    ensures stale !in ClearOldSessions(st, now, DefaultMaxAge).sessions
    ensures recent in ClearOldSessions(st, now, DefaultMaxAge).sessions
  {
  }

  // ---------------------------------------------------------------- answers

  /** The composite key of a cached answer: question id, a dash, session id. */
  function AnswerKey(questionId: string, sessionId: string): string {
    questionId + "-" + sessionId
  }

  /** The cached answer, or None when absent or empty (an empty answer is falsy). */
  function GetAnswer(st: Store, questionId: string, sessionId: string): (r: Option<string>)
    ensures r.Some? ==> r.value != ""
    ensures r.Some? <==> AnswerKey(questionId, sessionId) in st.answers
                         && st.answers[AnswerKey(questionId, sessionId)].answer != ""
    ensures r.Some? ==> r.value == st.answers[AnswerKey(questionId, sessionId)].answer
  {
    var key := AnswerKey(questionId, sessionId);
    if key in st.answers && st.answers[key].answer != "" then Some(st.answers[key].answer) else None
  }

  /** Caches an answer; it reads back unless it is empty, and no other key changes. */
  function SaveAnswer(st: Store, questionId: string, sessionId: string, answer: string, now: int): (r: Store)
    ensures GetAnswer(r, questionId, sessionId) == if answer == "" then None else Some(answer)
    ensures r.answers.Keys == st.answers.Keys + {AnswerKey(questionId, sessionId)}
    ensures forall k :: k in st.answers && k != AnswerKey(questionId, sessionId) ==> r.answers[k] == st.answers[k]
    ensures r.sessions == st.sessions && r.companies == st.companies && r.hrBank == st.hrBank
    ensures WellKeyed(st) ==> WellKeyed(r)
  {
    var key := AnswerKey(questionId, sessionId);
    st.(answers := st.answers[key := AnswerRecord(key, questionId, sessionId, answer, now)])
  }

  /** When two keys agree, the longer session id holds the other key's separating dash. */
  lemma DashInLongerSuffix(q1: string, s1: string, q2: string, s2: string)
    requires AnswerKey(q1, s1) == AnswerKey(q2, s2) && |s1| < |s2|
    ensures '-' in s2
  {
    var c := AnswerKey(q1, s1);
    var i := |c| - 1 - |s1|;
    assert c[i] == '-';
    assert c == q2 + "-" + s2;
    assert c[i] == s2[i - |q2| - 1];
  }

  /** The composite key is injective on pairs whose session id has no dash. */
  lemma {:induction false} AnswerKeyInjective(q1: string, s1: string, q2: string, s2: string)
    requires '-' !in s1 && '-' !in s2
    requires AnswerKey(q1, s1) == AnswerKey(q2, s2)
    ensures q1 == q2 && s1 == s2
  {
    var c := AnswerKey(q1, s1);
    assert c == q2 + "-" + s2;
    if |s1| < |s2| {
      DashInLongerSuffix(q1, s1, q2, s2);
      assert false;
    } else if |s2| < |s1| {
      DashInLongerSuffix(q2, s2, q1, s1);
      assert false;
    }
    assert s1 == c[|c| - |s1|..] == s2;
    assert q1 == c[..|q1|] == q2;
  }

  /** Without the restriction two different pairs share a key. */
  lemma AnswerKeyCollision()
    ensures AnswerKey("a-b", "c") == AnswerKey("a", "b-c")
  {
  }

  /** Saving one pair's answer never changes what another pair reads. */
  lemma SaveAnswerIsolated(st: Store, q1: string, s1: string, a: string, now: int, q2: string, s2: string)
    requires '-' !in s1 && '-' !in s2
    requires q1 != q2 || s1 != s2
    ensures GetAnswer(SaveAnswer(st, q1, s1, a, now), q2, s2) == GetAnswer(st, q2, s2)
  {
    if AnswerKey(q1, s1) == AnswerKey(q2, s2) {
      AnswerKeyInjective(q1, s1, q2, s2);
    }
  }

  // ---------------------------------------------------------------- companies

  /**
   * Stores `{id: companyId, ...data, updatedAt: now}`: a caller-supplied id
   * overrides companyId, and updatedAt is always `now`.
   */
  function SaveCompanyData(st: Store, companyId: string, data: CompanyData, now: int): (r: Store)
    ensures data.id.None? ==> companyId in r.companies && r.companies[companyId].id == companyId
    ensures data.id.Some? ==> data.id.value in r.companies && r.companies[data.id.value].id == data.id.value
    ensures data.id.Some? && data.id.value != companyId ==>
              (companyId in r.companies <==> companyId in st.companies)
              && (companyId in st.companies ==> r.companies[companyId] == st.companies[companyId])
    ensures var key := data.id.GetOr(companyId);
            && r.companies.Keys == st.companies.Keys + {key}
            && r.companies[key].updatedAt == now
            && r.companies[key].name == data.name
            && r.companies[key].logo == data.logo
            && r.companies[key].questions == data.questions
            && forall k :: k in st.companies && k != key ==> r.companies[k] == st.companies[k]
    ensures r.sessions == st.sessions && r.answers == st.answers && r.hrBank == st.hrBank
    ensures WellKeyed(st) ==> WellKeyed(r)
  {
    var rec := CompanyRecord(data.id.GetOr(companyId), data.name, data.logo, data.questions, now);
    st.(companies := st.companies[rec.id := rec])
  }

  function GetCompanyData(st: Store, companyId: string): (r: Option<CompanyRecord>)
    ensures r.Some? <==> companyId in st.companies
    ensures r.Some? ==> r.value == st.companies[companyId]
  {
    if companyId in st.companies then Some(st.companies[companyId]) else None
  }

  /** A company saved without its own id reads back under companyId, stamped `now`. */
  lemma CompanyRoundTrip(st: Store, companyId: string, data: CompanyData, now: int)
    requires data.id.None?
    ensures GetCompanyData(SaveCompanyData(st, companyId, data, now), companyId)
            == Some(CompanyRecord(companyId, data.name, data.logo, data.questions, now))
  {
  }

  // ---------------------------------------------------------------- key order

  predicate StrictlySorted(s: seq<string>) {
    forall i, j :: 0 <= i < j < |s| ==> Strings.Less(s[i], s[j])
  }

  /** Inserts a new key at its place in a sorted key list. */
  function Insert(s: seq<string>, k: string): (r: seq<string>)
    requires StrictlySorted(s) && k !in s
    ensures StrictlySorted(r)
    ensures forall x :: x in r <==> x in s || x == k
    ensures |r| == |s| + 1
  {
    if |s| == 0 then [k]
    else if Strings.Less(k, s[0]) then
      assert forall j :: 0 <= j < |s| ==> Strings.Less(k, s[j]) by {
        forall j | 0 < j < |s| ensures Strings.Less(k, s[j]) {
          Strings.LessTransitive(k, s[0], s[j]);
        }
      }
      [k] + s
    else
      Strings.LessTotal(k, s[0]);
      var rest := Insert(s[1..], k);
      assert forall x :: x in rest ==> Strings.Less(s[0], x) by {
        forall x | x in rest ensures Strings.Less(s[0], x) {
          if x != k {
            var j :| 1 <= j < |s| && s[j] == x;
          }
        }
      }
      var r := [s[0]] + rest;
      assert forall i, j :: 0 <= i < j < |r| ==> Strings.Less(r[i], r[j]) by {
        forall i, j | 0 <= i < j < |r| ensures Strings.Less(r[i], r[j]) {
          if i == 0 {
            assert r[j] == rest[j - 1] && rest[j - 1] in rest;
          } else {
            assert r[i] == rest[i - 1] && r[j] == rest[j - 1];
          }
        }
      }
      r
  }

  /** The keys of a collection in the order `getAll` returns them. */
  method KeyOrder(keys: set<string>) returns (r: seq<string>)
    ensures StrictlySorted(r)
    ensures forall k :: k in r <==> k in keys
    ensures |r| == |keys|
  {
    r := [];
    var rest := keys;
    while rest != {}
      invariant StrictlySorted(r)
      invariant forall k :: k in keys <==> k in r || k in rest
      invariant forall k :: k in r ==> k !in rest
      invariant rest <= keys
      invariant |r| + |rest| == |keys|
      decreases rest
    {
      var k :| k in rest;
      r := Insert(r, k);
      rest := rest - {k};
    }
  }

  /** `getAll('companies')`: every stored company, in key order. */
  method GetAllCompanies(st: Store) returns (r: seq<CompanyRecord>)
    requires WellKeyed(st)
    ensures |r| == |st.companies|
    ensures forall c :: c in r <==> c in st.companies.Values
    ensures forall i, j :: 0 <= i < j < |r| ==> Strings.Less(r[i].id, r[j].id)
  {
    var keys := KeyOrder(st.companies.Keys);
    r := seq(|keys|, i requires 0 <= i < |keys| => st.companies[keys[i]]);
    forall c | c in st.companies.Values ensures c in r {
      var k :| k in st.companies && st.companies[k] == c;
      var i :| 0 <= i < |keys| && keys[i] == k;
      assert r[i] == c;
    }
  }

  // ---------------------------------------------------------------- HR bank

  /** Puts each question under its id in list order, so a later duplicate id wins. */
  function PreloadHRBank(st: Store, questions: seq<Question>): (r: Store)
    ensures r.hrBank.Keys == st.hrBank.Keys + Ids(questions)
    ensures forall k :: k in r.hrBank ==>
              r.hrBank[k] == (if k in Ids(questions) then LastWithId(questions, k).value else st.hrBank[k])
    ensures r.sessions == st.sessions && r.answers == st.answers && r.companies == st.companies
    ensures WellKeyed(st) ==> WellKeyed(r)
    decreases |questions|
  {
    if |questions| == 0 then st
    else
      var q := questions[0];
      assert questions == [q] + questions[1..];
      assert Ids(questions) == {q.id} + Ids(questions[1..]);
      PreloadHRBank(st.(hrBank := st.hrBank[q.id := q]), questions[1..])
  }

  /** Preloading the same list twice stores the same bank as preloading it once. */
  lemma PreloadHRBankIdempotent(st: Store, questions: seq<Question>)
    ensures PreloadHRBank(PreloadHRBank(st, questions), questions) == PreloadHRBank(st, questions)
  {
    var once := PreloadHRBank(st, questions);
    var twice := PreloadHRBank(once, questions);
    SameBank(once.hrBank, twice.hrBank, questions);
    assert twice == Store(once.sessions, once.answers, once.companies, once.hrBank);
  }

  /** Two banks agreeing on keys and on every value are equal. */
  lemma SameBank(once: map<string, Question>, twice: map<string, Question>, questions: seq<Question>)
    requires once.Keys + Ids(questions) == twice.Keys
    requires Ids(questions) <= once.Keys
    requires forall k :: k in once ==> once[k] == (if k in Ids(questions) then LastWithId(questions, k).value else once[k])
    requires forall k :: k in twice ==> twice[k] == (if k in Ids(questions) then LastWithId(questions, k).value else once[k])
    ensures once == twice
  {
  }

  /** `getAll('hrBank')`: every stored question, in id order. */
  method GetHRBank(st: Store) returns (r: seq<Question>)
    requires WellKeyed(st)
    ensures |r| == |st.hrBank|
    ensures forall q :: q in r <==> q in st.hrBank.Values
    ensures forall i, j :: 0 <= i < j < |r| ==> Strings.Less(r[i].id, r[j].id)
  {
    var keys := KeyOrder(st.hrBank.Keys);
    r := seq(|keys|, i requires 0 <= i < |keys| => st.hrBank[keys[i]]);
    forall q | q in st.hrBank.Values ensures q in r {
      var k :| k in st.hrBank && st.hrBank[k] == q;
      var i :| 0 <= i < |keys| && keys[i] == k;
      assert r[i] == q;
    }
  }
}

=== FILE: strings.dfy ===
/**
 * String helpers shared by the model: JavaScript's `includes`, an ASCII
 * `toLowerCase`, `join`, integer-to-decimal conversion, and the code-unit
 * order IndexedDB uses to compare string keys.
 */
module Strings {

  /** `s.includes(sub)`: sub occurs in s at some offset (the empty string occurs everywhere). */
  predicate Contains(s: string, sub: string)
    decreases |s|
  {
    |sub| <= |s| && (sub <= s || Contains(s[1..], sub))
  }

  /** Witness form of Contains: the occurrence at offset i. */
  lemma {:induction false} ContainsAt(s: string, sub: string, i: nat)
    requires i + |sub| <= |s| && s[i..i + |sub|] == sub
    ensures Contains(s, sub)
    decreases i
  {
    if i == 0 {
      assert sub <= s;
    } else {
      assert s[1..][i - 1..i - 1 + |sub|] == s[i..i + |sub|];
      ContainsAt(s[1..], sub, i - 1);
    }
  }

  /** ASCII lower-casing of one character. */
  function LowerChar(c: char): char {
    if 'A' <= c <= 'Z' then (c as int + 32) as char else c
  }

  /** `s.toLowerCase()` restricted to ASCII letters. */
  function Lower(s: string): (r: string)
    ensures |r| == |s|
    ensures forall i :: 0 <= i < |s| ==> r[i] == LowerChar(s[i])
    ensures forall i :: 0 <= i < |r| ==> !('A' <= r[i] <= 'Z')
  {
    seq(|s|, i requires 0 <= i < |s| => LowerChar(s[i]))
  }

  /** Lower-casing twice is lower-casing once. */
  lemma LowerIdempotent(s: string)
    ensures Lower(Lower(s)) == Lower(s)
  {
    assert forall i :: 0 <= i < |s| ==> LowerChar(LowerChar(s[i])) == LowerChar(s[i]);
  }

  /** `xs.join(sep)`. */
  function Join(xs: seq<string>, sep: string): string {
    if |xs| == 0 then ""
    else if |xs| == 1 then xs[0]
    else xs[0] + sep + Join(xs[1..], sep)
  }

  predicate IsDigit(c: char) {
    '0' <= c <= '9'
  }

  function DigitChar(d: nat): (c: char)
    requires d < 10
    ensures IsDigit(c)
  {
    ('0' as int + d) as char
  }

  function DigitValue(c: char): nat
    requires IsDigit(c)
  {
    c as int - '0' as int
  }

  /** Decimal value of a string of digits, most significant first. */
  function ParseDecimal(s: string): nat
    requires forall i :: 0 <= i < |s| ==> IsDigit(s[i])
  {
    if |s| == 0 then 0 else 10 * ParseDecimal(s[..|s| - 1]) + DigitValue(s[|s| - 1])
  }

  /** `String(n)` for a non-negative integer: its decimal digits without leading zeros. */
  function Decimal(n: nat): (r: string)
    ensures 0 < |r|
    ensures forall i :: 0 <= i < |r| ==> IsDigit(r[i])
    ensures ParseDecimal(r) == n
    ensures r[0] == '0' ==> n == 0
  {
    if n < 10 then [DigitChar(n)]
    else
      var front := Decimal(n / 10);
      var r := front + [DigitChar(n % 10)];
      assert r[..|r| - 1] == front;
      r
  }

  /** A base-36 digit as written by `Number.prototype.toString(36)`. */
  predicate IsBase36(c: char) {
    '0' <= c <= '9' || 'a' <= c <= 'z'
  }

  /**
   * IndexedDB's ordering of string keys: lexicographic by character, a proper
   * prefix coming first.
   */
  predicate Less(a: string, b: string)
    decreases |a|
  {
    if |a| == 0 then 0 < |b|
    else if |b| == 0 then false
    else if a[0] != b[0] then a[0] < b[0]
    else Less(a[1..], b[1..])
  }

  lemma {:induction false} LessIrreflexive(a: string)
    ensures !Less(a, a)
    decreases |a|
  {
    if |a| > 0 {
      LessIrreflexive(a[1..]);
    }
  }

  lemma {:induction false} LessAsymmetric(a: string, b: string)
    requires Less(a, b)
    ensures !Less(b, a)
    decreases |a|
  {
    if |a| > 0 && |b| > 0 && a[0] == b[0] {
      LessAsymmetric(a[1..], b[1..]);
    }
  }

  lemma {:induction false} LessTotal(a: string, b: string)
    requires a != b
    ensures Less(a, b) || Less(b, a)
    decreases |a|
  {
    if |a| > 0 && |b| > 0 && a[0] == b[0] {
      assert a == [a[0]] + a[1..] && b == [b[0]] + b[1..];
      LessTotal(a[1..], b[1..]);
    }
  }

  lemma {:induction false} LessTransitive(a: string, b: string, c: string)
    requires Less(a, b) && Less(b, c)
    ensures Less(a, c)
    decreases |a|
  {
    if |a| > 0 && a[0] == b[0] && b[0] == c[0] {
      LessTransitive(a[1..], b[1..], c[1..]);
    }
  }
}

=== FILE: upload.dfy ===
/**
 * The two upload components: the file check they share in substance (a MIME
 * whitelist, then a 10 MiB bound), the professional component's mode and
 * domain/role form, and the simple component's first-file rule. Each handler
 * returns the next state and the effects it performed, in order.
 */
module Upload {
  import opened Wrappers

  datatype File = File(name: string, mimeType: string, size: nat)

  const Pdf: string := "application/pdf"
  const Doc: string := "application/msword"
  const Docx: string := "application/vnd.openxmlformats-officedocument.wordprocessingml.document"

  /** The professional component's whitelist, in its order. */
  const ProfessionalTypes: seq<string> := [Pdf, Doc, Docx]
  /** The simple component's whitelist, in its own order. */
  const ResumeTypes: seq<string> := [Pdf, Docx, Doc]

  /** 10 MiB: the largest accepted size, in bytes. */
  const MaxSize: nat := 10 * 1024 * 1024

  datatype Check = Accepted | BadType | TooLarge

  /** The file check: the type first, then the size; exactly 10 MiB passes. */
  function CheckFile(validTypes: seq<string>, f: File): (r: Check)
    ensures r == BadType <==> f.mimeType !in validTypes
    ensures r == TooLarge <==> f.mimeType in validTypes && f.size > MaxSize
    ensures r == Accepted <==> f.mimeType in validTypes && f.size <= MaxSize
  {
    if f.mimeType !in validTypes then BadType
    else if f.size > MaxSize then TooLarge
    else Accepted
  }

  /** The two whitelists differ only in order, so both components judge every file alike. */
  lemma SameVerdict(f: File)
    ensures CheckFile(ProfessionalTypes, f) == CheckFile(ResumeTypes, f)
  {
  }

  /** The size bound is inclusive: 10 MiB is accepted and one byte more is not. */
  lemma SizeBoundInclusive(name: string, mimeType: string)
    requires mimeType in ProfessionalTypes
    ensures CheckFile(ProfessionalTypes, File(name, mimeType, MaxSize)) == Accepted
    ensures CheckFile(ProfessionalTypes, File(name, mimeType, MaxSize + 1)) == TooLarge
    ensures MaxSize == 10_485_760
  {
  }

  /** A file failing both checks is reported as a type error. */
  lemma TypeCheckedFirst(f: File, validTypes: seq<string>)
    requires f.mimeType !in validTypes && f.size > MaxSize
    ensures CheckFile(validTypes, f) == BadType
  {
  }

  datatype Toast = InvalidFileType | FileTooLarge | MissingInformation | Processing(fileName: string)

  /** What a handler does outside its own state: a toast, or a call of one of the component's callbacks. */
  datatype Effect = Notify(toast: Toast) | ResumeUploaded(file: File) | DomainSelected(domain: string, role: string)

  /** The rejection toast for a failed check. */
  function Rejection(c: Check): Toast
    requires c != Accepted
  {
    if c == BadType then InvalidFileType else FileTooLarge
  }

  /** The number of callback invocations with a file in an effect list. */
  function Uploads(effects: seq<Effect>): nat {
    if |effects| == 0 then 0
    else (if effects[0].ResumeUploaded? then 1 else 0) + Uploads(effects[1..])
  }

  // ---------------------------------------------------------------------------
  // ProfessionalUpload

  /** The panel shown: the chooser, the resume drop zone, or the domain form. */
  datatype Mode = Choosing | ResumeMode | DomainMode

  datatype ProState = ProState(uploadedFile: Option<File>, mode: Mode, domain: string, role: string)

  const ProInitial: ProState := ProState(None, Choosing, "", "")

  datatype ProStep = ProStep(state: ProState, effects: seq<Effect>)

  /**
   * handleFileSelection: no file does nothing; a rejected file only raises its
   * toast; an accepted one is recorded, switches to the resume panel and is
   * handed to the upload callback once.
   */
  function ProFileSelection(st: ProState, file: Option<File>): (r: ProStep)
    ensures file.None? ==> r == ProStep(st, [])
    ensures file.Some? && CheckFile(ProfessionalTypes, file.value) != Accepted ==>
              r.state == st && |r.effects| == 1 && r.effects[0].Notify? && Uploads(r.effects) == 0
    ensures file.Some? && CheckFile(ProfessionalTypes, file.value) == Accepted ==>
              && r.state == st.(uploadedFile := file, mode := ResumeMode)
              && r.effects == [ResumeUploaded(file.value)]
    ensures Uploads(r.effects) == (if file.Some? && CheckFile(ProfessionalTypes, file.value) == Accepted then 1 else 0)
  {
    match file
    case None => ProStep(st, [])
    case Some(f) =>
      var c := CheckFile(ProfessionalTypes, f);
      if c != Accepted then
        ProStep(st, [Notify(Rejection(c))])
      else
        assert [ResumeUploaded(f)][1..] == [];
        ProStep(st.(uploadedFile := Some(f), mode := ResumeMode), [ResumeUploaded(f)])
  }

  /** The first element of a dropped or picked list, if there is one. */
  function First(files: seq<File>): (r: Option<File>)
    ensures r.None? <==> |files| == 0
    ensures r.Some? ==> r.value == files[0]
  {
    if |files| == 0 then None else Some(files[0])
  }

  /** handleDrop and handleFileInputChange: only the first file counts. */
  function ProFilesChosen(st: ProState, files: seq<File>): (r: ProStep)
    ensures |files| == 0 ==> r == ProStep(st, [])
    ensures |files| > 0 ==> r == ProFileSelection(st, Some(files[0]))
  {
    ProFileSelection(st, First(files))
  }

  /** The domain and role pickers. */
  function ChooseDomain(st: ProState, domain: string): (r: ProState)
    ensures r.domain == domain && r.(domain := st.domain) == st
  {
    st.(domain := domain)
  }

  function ChooseRole(st: ProState, role: string): (r: ProState)
    ensures r.role == role && r.(role := st.role) == st
  {
    st.(role := role)
  }

  /** The submit button is disabled exactly while a field is empty. */
  predicate DomainSubmitDisabled(st: ProState) {
    st.domain == "" || st.role == ""
  }

  /**
   * handleDomainSubmit: an empty field raises a toast and changes nothing;
   * otherwise the domain panel is shown and the callback gets both values.
   */
  function DomainSubmit(st: ProState): (r: ProStep)
    ensures st.domain == "" || st.role == "" ==> r == ProStep(st, [Notify(MissingInformation)])
    ensures st.domain != "" && st.role != "" ==>
              r.state == st.(mode := DomainMode) && r.effects == [DomainSelected(st.domain, st.role)]
  {
    if st.domain == "" || st.role == "" then ProStep(st, [Notify(MissingInformation)])
    else ProStep(st.(mode := DomainMode), [DomainSelected(st.domain, st.role)])
  }

  /** An enabled submit button always reaches the callback. */
  lemma EnabledSubmitSelects(st: ProState)
    requires !DomainSubmitDisabled(st)
    ensures DomainSelected(st.domain, st.role) in DomainSubmit(st).effects
    ensures DomainSubmit(st).state.mode == DomainMode
  {
  }

  /** The chooser's domain card opens the domain form. */
  function OpenDomainForm(st: ProState): (r: ProState)
    ensures r.mode == DomainMode && r.(mode := st.mode) == st
  {
    st.(mode := DomainMode)
  }

  /** The close buttons of both panels return to the chooser; the recorded file and the picks stay. */
  function ClosePanel(st: ProState): (r: ProState)
    ensures r.mode == Choosing && r.(mode := st.mode) == st
  {
    st.(mode := Choosing)
  }

  /** The hidden file input sits inside the résumé panel, so it is mounted only there. */
  predicate InputMounted(st: ProState) {
    st.mode == ResumeMode
  }

  /**
   * `fileInputRef.current?.click()`: with the input mounted the picker opens
   * and its change handler gets the picked list; with the ref still null the
   * optional call does nothing and `picked` is never seen.
   */
  function ClickFileInput(st: ProState, picked: seq<File>): (r: ProStep)
    ensures !InputMounted(st) ==> r == ProStep(st, [])
    ensures InputMounted(st) ==> r == ProFilesChosen(st, picked)
  {
    if InputMounted(st) then ProFilesChosen(st, picked) else ProStep(st, [])
  }

  /** The chooser's "Upload Resume" card as intended: it opens the picker, whose list goes to the file handler. */
  function ResumeCardIntended(st: ProState, picked: seq<File>): (r: ProStep)
    ensures |picked| > 0 && CheckFile(ProfessionalTypes, picked[0]) == Accepted ==>
              r.state.mode == ResumeMode && r.effects == [ResumeUploaded(picked[0])]
    ensures Uploads(r.effects) <= 1
  {
    ProFilesChosen(st, picked)
  }

  /**
   * What a user can do on the professional panel. `picked` is the list the
   * file picker would return if it opened.
   */
  datatype ProEvent =
    | ResumeCard(picked: seq<File>)
    | DomainCard
    | Close
    | PickDomain(domain: string)
    | PickRole(role: string)
    | SubmitDomain
    | DropZoneClick(picked: seq<File>)
    | DropFiles(files: seq<File>)

  /** Whether the element an event acts on is on screen in the current mode. */
  predicate Rendered(st: ProState, e: ProEvent) {
    match e
    case ResumeCard(_) => st.mode == Choosing
    case DomainCard => st.mode == Choosing
    case Close => st.mode != Choosing
    case PickDomain(_) => st.mode == DomainMode
    case PickRole(_) => st.mode == DomainMode
    case SubmitDomain => st.mode == DomainMode
    case DropZoneClick(_) => st.mode == ResumeMode
    case DropFiles(_) => st.mode == ResumeMode
  }

  /**
   * One user event on the panel as written. An element that is not on screen
   * cannot be used, and the disabled submit button ignores clicks. Only its X
   * button leaves the résumé panel. Only the file handler switches to that
   * panel, and its input is mounted only there, so no event enters the panel
   * or reaches the upload callback from elsewhere.
   */
  function ProHandle(st: ProState, e: ProEvent): (r: ProStep)
    ensures !Rendered(st, e) ==> r == ProStep(st, [])
    ensures st.mode == ResumeMode && !e.Close? ==> r.state.mode == ResumeMode
    ensures st.mode != ResumeMode ==> r.state.mode != ResumeMode && Uploads(r.effects) == 0
  {
    if !Rendered(st, e) then ProStep(st, [])
    else
      match e
      case ResumeCard(picked) => ClickFileInput(st, picked)
      case DomainCard => ProStep(OpenDomainForm(st), [])
      case Close => ProStep(ClosePanel(st), [])
      case PickDomain(d) => ProStep(ChooseDomain(st, d), [])
      case PickRole(role) => ProStep(ChooseRole(st, role), [])
      case SubmitDomain =>
        if DomainSubmitDisabled(st) then ProStep(st, [])
        else
          assert Uploads([DomainSelected(st.domain, st.role)]) == 0 by {
            assert [DomainSelected(st.domain, st.role)][1..] == [];
          }
          DomainSubmit(st)
      case DropZoneClick(picked) => ClickFileInput(st, picked)
      case DropFiles(files) => ProFilesChosen(st, files)
  }

  /** One event with the chooser's card opening the picker as intended; every other event as written. */
  function ProHandleIntended(st: ProState, e: ProEvent): (r: ProStep)
    ensures !e.ResumeCard? ==> r == ProHandle(st, e)
    ensures e.ResumeCard? && st.mode == Choosing ==> r == ResumeCardIntended(st, e.picked)
  {
    if e.ResumeCard? && st.mode == Choosing then ResumeCardIntended(st, e.picked)
    else ProHandle(st, e)
  }

  /** A run of events, the states threaded through and the effects collected in order. */
  function ProRun(st: ProState, events: seq<ProEvent>, intended: bool): ProStep
    decreases |events|
  {
    if |events| == 0 then ProStep(st, [])
    else
      var s := if intended then ProHandleIntended(st, events[0]) else ProHandle(st, events[0]);
      var rest := ProRun(s.state, events[1..], intended);
      ProStep(rest.state, s.effects + rest.effects)
  }

  lemma {:induction false} UploadsAppend(a: seq<Effect>, b: seq<Effect>)
    ensures Uploads(a + b) == Uploads(a) + Uploads(b)
    decreases |a|
  {
    if |a| == 0 {
      assert a + b == b;
    } else {
      UploadsAppend(a[1..], b);
      assert (a + b)[0] == a[0];
      assert (a + b)[1..] == a[1..] + b;
    }
  }

  /**
   * As written, the résumé panel is never entered from any other panel,
   * whatever the user does, so the upload callback is never reached: the
   * chooser's card clicks an input that is not mounted yet.
   */
  lemma {:induction false} ResumePanelUnreachable(st: ProState, events: seq<ProEvent>)
    requires st.mode != ResumeMode
    ensures ProRun(st, events, false).state.mode != ResumeMode
    ensures Uploads(ProRun(st, events, false).effects) == 0
    decreases |events|
  {
    if |events| > 0 {
      var s := ProHandle(st, events[0]);
      var rest := ProRun(s.state, events[1..], false);
      ResumePanelUnreachable(s.state, events[1..]);
      UploadsAppend(s.effects, rest.effects);
    }
  }

  /** With the card opening the picker, one accepted file from the initial chooser reaches the résumé panel and is uploaded once. */
  lemma IntendedCardOpensResumePanel(picked: seq<File>)
    requires |picked| > 0 && CheckFile(ProfessionalTypes, picked[0]) == Accepted
    ensures ProRun(ProInitial, [ResumeCard(picked)], true).state.mode == ResumeMode
    ensures ProRun(ProInitial, [ResumeCard(picked)], true).effects == [ResumeUploaded(picked[0])]
  {
    var s := ProHandleIntended(ProInitial, ResumeCard(picked));
    assert ProRun(s.state, [ResumeCard(picked)][1..], true) == ProStep(s.state, []);
  }

  // ---------------------------------------------------------------------------
  // ResumeUpload

  datatype ResumeStep = ResumeStep(uploadedFile: Option<File>, effects: seq<Effect>)

  /**
   * handleFileSelection over a list: only the first file counts; an accepted
   * one is recorded, handed to the callback once, and announced by name.
   */
  function ResumeFilesChosen(uploaded: Option<File>, files: seq<File>): (r: ResumeStep)
    ensures |files| == 0 ==> r == ResumeStep(uploaded, [])
    ensures |files| > 0 && CheckFile(ResumeTypes, files[0]) != Accepted ==>
              r.uploadedFile == uploaded && |r.effects| == 1 && r.effects[0].Notify? && Uploads(r.effects) == 0
    ensures |files| > 0 && CheckFile(ResumeTypes, files[0]) == Accepted ==>
              && r.uploadedFile == Some(files[0])
              && r.effects == [ResumeUploaded(files[0]), Notify(Processing(files[0].name))]
    ensures Uploads(r.effects) == (if |files| > 0 && CheckFile(ResumeTypes, files[0]) == Accepted then 1 else 0)
  {
    if |files| == 0 then ResumeStep(uploaded, [])
    else
      var f := files[0];
      var c := CheckFile(ResumeTypes, f);
      if c != Accepted then
        ResumeStep(uploaded, [Notify(Rejection(c))])
      else
        var effects := [ResumeUploaded(f), Notify(Processing(f.name))];
        assert effects[1..][1..] == [];
        assert Uploads(effects[1..]) == 0;
        ResumeStep(Some(f), effects)
  }

  /** Both components hand the same file, from the same list, to their upload callback. */
  lemma ComponentsUploadAlike(st: ProState, uploaded: Option<File>, files: seq<File>, f: File)
    ensures ResumeUploaded(f) in ProFilesChosen(st, files).effects <==> ResumeUploaded(f) in ResumeFilesChosen(uploaded, files).effects
  {
    if |files| > 0 {
      SameVerdict(files[0]);
    }
  }
}

=== FILE: wrappers.dfy ===
/** Optional values: the model's stand-in for TypeScript's `T | null | undefined`. */
module Wrappers {

  datatype Option<+T> = None | Some(value: T) {

    /** Returns the value in Some, or the default when None. */
    function GetOr(default: T): T {
      match this
      case Some(v) => v
      case None => default
    }
  }
}
